=== FILE: README.md ===
# HR management services — a Dafny model

This project models the service layer of a small HR management system: the
attendance engine, the leave workflow, the payroll calculator, and the
employee and department stores. Each SQL table is a sequence of immutable
rows. No uniqueness of keys is assumed: an UPDATE rewrites every matching
row, a DELETE removes every matching row, and a lookup returns the first
match. Each service operation is a pure function from the current tables,
its arguments and an injected clock reading (`now` or `today`) to the new
tables and a result. A thrown exception becomes an `Err` of the matching
kind, and the tables are then left as the operation left them.

Modules, one per file:

- `Common`: Option, Result, the error kinds, and the Filter/Count/Select helpers behind SELECT ... WHERE, with the exact multiplicity of a projection and the agreement of a filtered projection with the conjoined query.
- `Calendar`: proleptic Gregorian dates and timestamps, with seconds-of-day precision. It also holds the `DateTime.MinValue` sentinel, the SQL minimum date 1753-01-01 with the check every datetime parameter must pass, `AddYears` and elapsed hours.
- `Text`: 32-bit integer bounds, ordinal string order, `ToString("D3")`, `int.TryParse`, and SQL `CAST(... AS INT)`.
- `Ids`: the shared generator `NextId(prefix, maxSuffix)`. Around it sit two scans: a numeric MAX (attendance) and a lexicographic MAX (leave requests, departments).
- `EmployeeService`, `DepartmentService`, `AttendanceService`, `LeaveService`, `PayrollService`: the five services.

## Model

| member | source | states |
|---|---|---|
| Ids.Int32Inc | HRManagementSystem/Services/AttendanceService.cs:145 | `maxId + 1` on a C# int: one more below int.MaxValue, wrapping to int.MinValue at it |
| Ids.NextId | HRManagementSystem/Services/AttendanceService.cs:145 | the identifier starts with the prefix and has at least three digits after it; both int.TryParse and SQL CAST read the suffix back as maxSuffix + 1 |
| Ids.NextIdAfterZero | HRManagementSystem/Services/AttendanceService.cs:133-145 | with a maximum of 0 the generator yields prefix + "001" |
| Ids.NextIdExample42 | HRManagementSystem/Services/AttendanceService.cs:145 | "D3" pads 42 to ATT042 |
| Ids.NextIdExample1000 | HRManagementSystem/Services/AttendanceService.cs:145 | past 999 the suffix grows to four digits (prefix + "1000") |
| Ids.NextIdExampleNegative | HRManagementSystem/Services/DepartmentService.cs:156-158 | a parsed suffix of -5 yields DEP-004 |
| Ids.MaxSuffix | HRManagementSystem/Services/AttendanceService.cs:136-143 | MAX(CAST(SUBSTRING ...)) over the ATT-prefixed identifiers is NULL iff there are none. It fails iff some suffix does not cast. Otherwise it is an int that bounds every suffix and is attained by one of them |
| Ids.NumericNextId | HRManagementSystem/Services/AttendanceService.cs:131-146 | ATT + (max + 1), or ATT001 when the scan returns NULL; it fails exactly when the scan does |
| Ids.NumericNextIdFresh | HRManagementSystem/Services/AttendanceService.cs:131-146 | while the maximum is below int.MaxValue, the new suffix is greater than every existing one, so the identifier is unused |
| Ids.Prefixed | HRManagementSystem/Services/LeaveService.cs:65 | the identifiers matching LIKE 'LVE%' are exactly those with that prefix; the list is empty iff none has it |
| Text.LexMax | HRManagementSystem/Services/LeaveService.cs:65 | SQL MAX over strings is a member of the list and ordinally at least every member |
| Ids.LexicalNextId | HRManagementSystem/Services/LeaveService.cs:62-81 | with no prefixed identifier: prefix + "001". Otherwise the lexicographic maximum decides: an unparseable suffix gives prefix + "001", a parsed n gives NextId(prefix, n) |
| Ids.LexicalNextIdCanCollide | HRManagementSystem/Services/DepartmentService.cs:143-163 | with DEP999 and DEP1000 stored, "DEP999" is the string MAX, and the generator returns DEP1000, which is already taken |
| Text.ParseInt32 | HRManagementSystem/Services/LeaveService.cs:74 | int.TryParse succeeds only with a value in the 32-bit range |
| Text.SqlCastInt | HRManagementSystem/Services/AttendanceService.cs:136 | CAST AS INT succeeds only in the 32-bit range. An all-blank string and a lone "-" or "+" cast to 0. Any other string that int.TryParse accepts casts to the same value, and every remaining string is a conversion error |
| Text.ParseFormatD3 | HRManagementSystem/Services/DepartmentService.cs:156-158 | int.TryParse and CAST AS INT both invert ToString("D3") for every 32-bit value, negative ones included |
| Calendar.AddYears | HRManagementSystem/Services/EnployeeService.cs:156 | DateTime.AddYears: fails outside years 1..9999. Otherwise it keeps the month and the day, and a day past the end of the target month (29 February) becomes that month's last day |
| Calendar.FirstOfMonth | HRManagementSystem/Services/LeaveService.cs:181 | new DateTime(year, month, 1) fails exactly outside year 1..9999 or month 1..12 |
| Calendar.ElapsedHoursNonNegative | HRManagementSystem/Services/AttendanceService.cs:158-159 | a clock-out no earlier than the clock-in gives a non-negative number of hours |
| EmployeeService.InsertedRow | HRManagementSystem/Services/EnployeeService.cs:179-192 | the inserted row copies the thirteen bound columns and always holds AnnualBonus = 0 |
| EmployeeService.Add | HRManagementSystem/Services/EnployeeService.cs:146-203 | the full timestamps are compared against midnights. It fails with no write when the date of birth is before 1753-01-01 00:00 or after today's midnight, so a time later today is rejected. It also fails when the hire date is before 1753-01-01 or after the midnight of today + 1 year. Otherwise it appends one row and returns true; an empty Id is replaced by the fresh GUID, and a given Id is kept |
| EmployeeService.AddThenGetById | HRManagementSystem/Services/EnployeeService.cs:71-107 | an added employee whose settled Id was not yet in use reads back by that Id as the projection of the inserted row |
| EmployeeService.Update | HRManagementSystem/Services/EnployeeService.cs:205-273 | an empty Id throws. A date of birth or hire date before 1753 makes the command fail (SqlDateTime overflow) and nothing is written. Otherwise it writes the twelve listed columns (EmployeeId included) on the rows with that Id. Id, AnnualBonus and every other row stay unchanged. It returns true iff such a row exists |
| EmployeeService.UpdateOfLookedUpFails | HRManagementSystem/Services/EnployeeService.cs:243-245 | an employee returned by GetById carries the 0001-01-01 default dates, so writing it back with Update fails and leaves the table unchanged |
| EmployeeService.UpdateIgnoresVariant | HRManagementSystem/Services/EnployeeService.cs:221-234 | the runtime class (and so a ContractEmployee's HoursWorked) has no effect on what Update writes |
| EmployeeService.Delete | HRManagementSystem/Services/EnployeeService.cs:274-289 | an empty id throws. Otherwise no row with that Id survives, every other row survives, the result is a sub-multiset of the table whose length is the number of rows with another Id, and it returns true iff one existed |
| EmployeeService.GetByEmployeeId | HRManagementSystem/Services/EnployeeService.cs:108-144 | an empty id throws. It returns null iff no row has that EmployeeId. Otherwise it returns a base-class Employee built from a matching row's selected columns only |
| EmployeeService.AddThenGetByEmployeeId | HRManagementSystem/Services/EnployeeService.cs:108-144 | an employee added under an unused EmployeeId is found by GetByEmployeeId as the projection of the inserted row |
| EmployeeService.GetById | HRManagementSystem/Services/EnployeeService.cs:71-107 | the same contract, keyed on Id |
| EmployeeService.DeleteThenGetById | HRManagementSystem/Services/EnployeeService.cs:274-289 | after Delete(id), GetById(id) returns null |
| EmployeeService.SortByEmployeeId | HRManagementSystem/Services/EnployeeService.cs:22-25 | ORDER BY EmployeeId: the result is ordinally sorted and a permutation of the input |
| EmployeeService.GetAll | HRManagementSystem/Services/EnployeeService.cs:14-69 | every row exactly once, each read as a base-class Employee, in ascending EmployeeId order |
| DepartmentService.GenerateNewDepartmentId | HRManagementSystem/Services/DepartmentService.cs:143-163 | the identifier starts with DEP, and it is DEP001 when no DEP identifier exists |
| DepartmentService.Stored | HRManagementSystem/Services/DepartmentService.cs:89-92 | null Description, ManagerId and ManagerName are written as "" |
| DepartmentService.Add | HRManagementSystem/Services/DepartmentService.cs:76-97 | appends exactly the stored form of the department and returns true |
| DepartmentService.Update | HRManagementSystem/Services/DepartmentService.cs:99-125 | an empty DepartmentId throws. Otherwise only Name, Description, Budget, ManagerId and ManagerName of the matching rows change, never the key, and it returns true iff a row matched |
| DepartmentService.Delete | HRManagementSystem/Services/DepartmentService.cs:127-141 | an empty id throws. Otherwise no row with that id survives, every other row survives, the result is a sub-multiset of the table whose length is the number of rows with another id, and it returns true iff one existed |
| DepartmentService.DeleteThenGetById | HRManagementSystem/Services/DepartmentService.cs:127-141 | after Delete(id), GetById(id) returns null |
| DepartmentService.GetById | HRManagementSystem/Services/DepartmentService.cs:44-74 | an empty id throws; it returns null iff the id is absent, otherwise a row with that id |
| DepartmentService.AddThenGetById | HRManagementSystem/Services/DepartmentService.cs:76-97 | a new department reads back as stored |
| DepartmentService.UpdateKeepsKeys | HRManagementSystem/Services/DepartmentService.cs:104-112 | Update leaves the set of findable DepartmentIds unchanged |
| AttendanceService.ClockColumn | HRManagementSystem/Services/AttendanceService.cs:50-54 | a clock-out before 1753-01-01 is bound as NULL, any other time as itself |
| AttendanceService.ReadClock | HRManagementSystem/Services/AttendanceService.cs:188-194 | the monthly and daily readers read NULL as DateTime.MinValue |
| AttendanceService.ClockColumnRoundTrip | HRManagementSystem/Services/AttendanceService.cs:50-54 | the "not clocked out" sentinel goes to NULL and comes back as the sentinel; a storable time comes back unchanged |
| AttendanceService.RowRoundTrip | HRManagementSystem/Services/AttendanceService.cs:36-57 | a record written by RecordAttendance reads back unchanged through the monthly and daily reader |
| AttendanceService.GenerateNewAttendanceId | HRManagementSystem/Services/AttendanceService.cs:131-146 | the identifier starts with ATT; it fails only when a suffix does not cast |
| AttendanceService.NewAttendanceIdFresh | HRManagementSystem/Services/AttendanceService.cs:131-146 | below int.MaxValue the new identifier is not in the table |
| AttendanceService.FirstAttendanceId | HRManagementSystem/Services/AttendanceService.cs:133-145 | an empty table yields ATT001 |
| AttendanceService.RecordAttendance | HRManagementSystem/Services/AttendanceService.cs:9-64 | a second record for the same employee and day fails, and the table is unchanged. A clock before 1753 fails the insert with nothing written. Otherwise it appends one row with Date = today, ClockIn = now, ClockOut = the sentinel (stored as NULL) and IsAbsentRecord = false, and that row reads back as the returned record. Present after 09:00:00 becomes Late, exactly 09:00:00 stays Present, and other statuses pass through |
| AttendanceService.SecondClockInSameDayFails | HRManagementSystem/Services/AttendanceService.cs:11-14 | after a successful clock-in, another one on the same day fails and changes nothing |
| AttendanceService.RecordedAppearsInDailyAttendance | HRManagementSystem/Services/AttendanceService.cs:24-34 | after a successful clock-in, that day's daily query succeeds and lists the returned record |
| AttendanceService.AccrueContractHours | HRManagementSystem/Services/AttendanceService.cs:148-166 | the accrual fires iff both times are set, the type string is "Contract" and the object is a ContractEmployee. It then adds exactly the elapsed hours and changes nothing else |
| AttendanceService.AccrualAddsUp | HRManagementSystem/Services/AttendanceService.cs:158-164 | two clock-outs accrue the sum of both shifts |
| AttendanceService.AccrualIsNotPersisted | HRManagementSystem/Services/AttendanceService.cs:161-165 | writing the accrued employee back stores the same as writing the original: the hours are lost |
| AttendanceService.UpdateContractEmployeeHours | HRManagementSystem/Services/AttendanceService.cs:148-166 | the employee table never changes; the only failure is an empty EmployeeId on a record with both times set |
| AttendanceService.AccrualNeverFiresAsWritten | HRManagementSystem/Services/AttendanceService.cs:154-161 | the employee GetByEmployeeId returns never takes the ContractEmployee branch |
| AttendanceService.ReadByIdRow | HRManagementSystem/Services/AttendanceService.cs:100-110 | Convert.ToDateTime fails on a NULL clock column; otherwise the row reads as in the other readers |
| AttendanceService.GetAttendanceById | HRManagementSystem/Services/AttendanceService.cs:87-115 | not-found iff no row has that id. Otherwise the result is the first row with that id, read: an invalid cast iff one of its clock columns is NULL, and that row's record iff both are set |
| AttendanceService.SetClockOut | HRManagementSystem/Services/AttendanceService.cs:73-79 | ClockOutTime = now on exactly the rows with that id; all else unchanged |
| AttendanceService.ReadAfterClockOut | HRManagementSystem/Services/AttendanceService.cs:73-82 | after the UPDATE, reading a known id back succeeds iff the first row with that id has a clock-in, and then yields that record with ClockOutTime = now; otherwise it fails with the invalid cast |
| AttendanceService.UpdateClockOut | HRManagementSystem/Services/AttendanceService.cs:67-84 | a clock before 1753 fails the UPDATE and nothing changes. Otherwise the clock-out is written first. An unknown id then fails with not-found and changes nothing. For a known id, a NULL clock-in fails the read-back with an invalid cast; otherwise the record is read with ClockOutTime = now, and the call succeeds iff its ClockInTime is the sentinel or its EmployeeId is non-empty. The employee table is never changed |
| AttendanceService.ClockOutTwiceOverwrites | HRManagementSystem/Services/AttendanceService.cs:73-79 | there is no guard against a second clock-out: once the second clock reading is storable, two calls leave the table as the second alone would |
| AttendanceService.GetMonthlyAttendance | HRManagementSystem/Services/AttendanceService.cs:168-203 | exactly the records dated in that year and month: one per matching row, each read from a matching row |
| AttendanceService.GetEmployeeAttendance | HRManagementSystem/Services/AttendanceService.cs:220-223 | the monthly records with that EmployeeId: as many as the monthly list holds, a sub-multiset of it, and every such record listed |
| AttendanceService.EmployeeAttendanceInOnePass | HRManagementSystem/Services/AttendanceService.cs:220-223 | narrowing the monthly list to one employee equals the single query "in that month and with that EmployeeId" in table order |
| AttendanceService.GetDailyAttendance | HRManagementSystem/Services/AttendanceService.cs:225-259 | a date before 1753 fails on the @Date parameter. Otherwise exactly the records dated date.Date: one per matching row, each read from a matching row |
| AttendanceService.GetEmployeeDailyAttendance | HRManagementSystem/Services/AttendanceService.cs:261-264 | fails exactly when the daily query does (a date before 1753). Otherwise the daily records with that EmployeeId: as many as the daily list holds, a sub-multiset of it, and every such record listed |
| AttendanceService.RecordedAppearsInEmployeeDailyAttendance | HRManagementSystem/Services/AttendanceService.cs:261-264 | after a successful clock-in, the employee's own daily query succeeds and lists the returned record |
| AttendanceService.SummarizeByStatus | HRManagementSystem/Services/AttendanceService.cs:210-215 | a status is a key iff some record has it, and its value is that status's count |
| AttendanceService.GetAttendanceSummary | HRManagementSystem/Services/AttendanceService.cs:205-218 | the per-status counts of that month's records, with no entry for an absent status |
| AttendanceService.StatusCountsPartition | HRManagementSystem/Services/AttendanceService.cs:210-215 | every record falls under exactly one of the four statuses |
| AttendanceService.SummaryTotalsMonth | HRManagementSystem/Services/AttendanceService.cs:205-218 | the summary's counts add up to the number of records in that month |
| LeaveService.GenerateLeaveRequestId | HRManagementSystem/Services/LeaveService.cs:62-81 | the identifier starts with LVE, and it is LVE001 when no LVE identifier exists |
| LeaveService.ReadRequest | HRManagementSystem/Services/LeaveService.cs:115-140 | dates read back at midnight; a NULL ApproverId reads back as "" |
| LeaveService.SubmitLeaveRequest | HRManagementSystem/Services/LeaveService.cs:17-59 | start > end fails before any lookup. An empty id throws. An unknown employee fails with not-found. A clock, start or end before 1753 fails the insert. Nothing is written on any failure. Otherwise it appends one Pending row with a NULL approver, the employee's name, remarks "" for null, and the dates truncated to the day. The returned request carries the new RequestId, the given EmployeeId, Type, times and remarks, and RequestDate = now |
| LeaveService.SubmitKeepsRangesOrdered | HRManagementSystem/Services/LeaveService.cs:19-20 | every stored request keeps start ≤ end |
| LeaveService.ApproveLeaveRequest | HRManagementSystem/Services/LeaveService.cs:85-97 | Status = Approved and ApproverId set on the matching rows, whatever their status. Remarks and every other row are unchanged. Returns true iff the id exists |
| LeaveService.RejectLeaveRequest | HRManagementSystem/Services/LeaveService.cs:101-114 | Status = Rejected, ApproverId set and Remarks = the reason ("" for null) on the matching rows; true iff the id exists |
| LeaveService.ApproveAfterReject | HRManagementSystem/Services/LeaveService.cs:85-114 | a rejected request can still be approved; it keeps the rejection reason |
| LeaveService.DecisionsKeepRangesOrdered | HRManagementSystem/Services/LeaveService.cs:85-114 | decisions keep every stored range ordered |
| LeaveService.GetEmployeeLeaves | HRManagementSystem/Services/LeaveService.cs:143-161 | as many requests as rows with that EmployeeId, each read from such a row, and every such row's request listed |
| LeaveService.SubmittedListedForEmployee | HRManagementSystem/Services/LeaveService.cs:143-161 | after a successful submission, the stored request is among that employee's requests, under the returned RequestId |
| LeaveService.MonthSelectionIsOverlap | HRManagementSystem/Services/LeaveService.cs:171-176 | for valid dates with start ≤ end, the three-clause month predicate holds iff the inclusive range meets the month |
| LeaveService.SpanningRequestInBothMonths | HRManagementSystem/Services/LeaveService.cs:171-176 | 2024-01-28..2024-02-03 is in January and in February, not in March |
| LeaveService.GetMonthlyLeaves | HRManagementSystem/Services/LeaveService.cs:167-191 | an invalid year or month fails when the first of the month is built. A year before 1753 fails on the @FirstOfMonth parameter. Otherwise exactly the requests the month predicate selects |
| LeaveService.GetEmployeeMonthlyLeaves | HRManagementSystem/Services/LeaveService.cs:217-243 | the same two failures. Otherwise the same predicate restricted to one employee: as many requests as matching rows, a sub-multiset of the monthly list, and every match listed |
| LeaveService.GetDailyLeaves | HRManagementSystem/Services/LeaveService.cs:194-213 | a date before 1753 fails on the @Date parameter. Otherwise one request per row with start ≤ date ≤ end, each read from such a row, and every such row's request listed |
| LeaveService.GetEmployeeDailyLeaves | HRManagementSystem/Services/LeaveService.cs:246-266 | the same failure. Otherwise the same selection restricted to one employee: as many requests as matching rows, a sub-multiset of the daily list, and every match listed |
| LeaveService.DailySelectionInclusive | HRManagementSystem/Services/LeaveService.cs:198-200 | once the day is storable, both the first and the last day of a request select it |
| PayrollService.CalculateNetSalary | HRManagementSystem/Services/PayrollService.cs:191-192 | net + deductions = base + allowances; the result is negative iff the deductions exceed the rest |
| PayrollService.NetSalaryExamples | HRManagementSystem/Services/PayrollService.cs:191-192 | (5000, 200, 300) gives 4900 and (100, 0, 500) gives -400: no clamping |
| PayrollService.SumNetAppend | HRManagementSystem/Services/PayrollService.cs:194-199 | the total of two lists together is the sum of their totals |
| PayrollService.SumNetBounds | HRManagementSystem/Services/PayrollService.cs:194-199 | amounts in [lo, hi] give a total in [n·lo, n·hi] |
| PayrollService.CalculateTotalPayroll | HRManagementSystem/Services/PayrollService.cs:194-199 | the sum of NetSalary over the list; 0 for an empty list |
| PayrollService.CalculateAverageSalary | HRManagementSystem/Services/PayrollService.cs:201-202 | 0 for an empty list, otherwise average × count = total |
| PayrollService.GetSalaryRange | HRManagementSystem/Services/PayrollService.cs:204-219 | (0, 0) for an empty list; otherwise min ≤ every NetSalary ≤ max, and both bounds are attained |
| PayrollService.AverageWithinRange | HRManagementSystem/Services/PayrollService.cs:201-219 | the average lies between the minimum and the maximum |
| PayrollService.GetPayrollsByMonth | HRManagementSystem/Services/PayrollService.cs:77-96 | exactly the payrolls whose PayPeriodStart falls in the month's year and month |
| PayrollService.PeriodEndIgnored | HRManagementSystem/Services/PayrollService.cs:84 | a period from 31 January to 29 February belongs to January only |
| PayrollService.RunPayrollForMonth | HRManagementSystem/Services/PayrollService.cs:174-188 | IsPaid is set on exactly the unpaid payrolls starting in that month. Every other row and field is unchanged. Returns true iff some row changed |
| PayrollService.RunPayrollIdempotent | HRManagementSystem/Services/PayrollService.cs:177-186 | a second run for the same month returns false and changes nothing |
| PayrollService.RunPaysWholeMonth | HRManagementSystem/Services/PayrollService.cs:177-180 | afterwards every payroll of that month is paid |
| PayrollService.RunKeepsTotal | HRManagementSystem/Services/PayrollService.cs:177-180 | the total NetSalary of the table is unchanged by a run |
| PayrollService.Add | HRManagementSystem/Services/PayrollService.cs:98-127 | a PayPeriodStart or PayPeriodEnd before 1753 fails the insert with nothing written. Otherwise it appends the payroll under a fresh GUID, keeps every other field as given, and returns true |
| PayrollService.AddIgnoresGivenId | HRManagementSystem/Services/PayrollService.cs:112 | the caller's PayrollId has no effect on the result |
| PayrollService.AddKeepsGivenNetSalary | HRManagementSystem/Services/PayrollService.cs:120 | when the insert succeeds, a NetSalary inconsistent with its components is stored as it is |
| PayrollService.AddedListedInItsMonth | HRManagementSystem/Services/PayrollService.cs:98-127 | when the insert succeeds, the new payroll is listed under the month its period starts in |

## Left out

- User interface, the session singleton, ADO.NET connections and readers, and Debug logging are not modelled. GUIDs are a `freshGuid` parameter, and the clock is the `now` / `today` parameter.
- Concurrency is not modelled. Generating an identifier and inserting it can race. A clock-out and its accrual are not atomic. The model is sequential.
- The check for an existing record today reads the database clock (GETDATE()), while the record's date comes from the application clock. The model uses one clock for both.
- SubmitLeaveRequest reads DateTime.Now twice, once for the row and once for the returned object. The model uses one `now` for both.
- RecordAttendance: it reads the clock three times. DateTime.Now gives ClockInTime (AttendanceService.cs:16), DateTime.Today gives Date (:29), and the duplicate check compares against the database server's GETDATE() (:121). The model takes all three from one `now`. So it does not show a call that straddles midnight storing a Date one day after the clock-in's date, nor a server clock that differs from the application's.
- LeaveRequest.StartDate and EndDate are assumed to be SQL `date` columns, which keep only the day; the schema is not in the source. With `datetime` columns the time of day would be stored, and `@Date BETWEEN StartDate AND EndDate` (@Date at midnight) would miss a request on its first day when it starts after midnight. DailySelectionInclusive and the stored-row dates in SubmitLeaveRequest rely on this assumption.
- Time is kept to the second. A clock-in at 09:00:00.5 is Late in the source but falls on 09:00:00 here.
- TotalHours is a double that is then cast to decimal. Money is exact `real`: decimal rounding (in the average, for instance) is not modelled, and neither is the OverflowException that a decimal sum beyond about 7.9e28 raises (PayrollService.cs:194-199).
- PayrollService.GetSalaryRange: the source starts from decimal.MaxValue and decimal.MinValue and improves on them; the model starts from the first payroll. For a non-empty list the two give the same result.
- Collation: LIKE and ORDER BY are taken as case-sensitive and ordinal. A database with a case-insensitive or culture-aware collation may order and match differently.
- Null entity arguments (`entity == null`, `p == null`), null strings passed where a non-null one is required, and the DBNull marshalling of columns not named above are not modelled. An empty identifier stands for `string.IsNullOrEmpty`.
- The DepartmentName subquery join in the employee readers, and the `Employee` object attached to a submitted leave request, are not modelled.
- The enum declarations (EmployeeStatus, AttendanceStatus, LeaveType, LeaveStatus) are not part of this model. LeaveType is carried as its integer code. Status values are read back as stored, so Enum.Parse and integer casts cannot fail here.
- GetById and GetByEmployeeId leave DateOfBirth, HireDate, BaseSalary and Status unset. The model gives them DateTime.MinValue (0001-01-01 00:00), 0 and the first status (Active), on the assumption that the Employee class has no other initialisers.
- A DateTime bound with AddWithValue is typed as SQL datetime, whose range starts at 1753-01-01. Every such binding is checked against that bound, and a value before it fails the command as an `SqlFailure` with nothing written. The upper end of the range and datetime's rounding to 1/300 second do not arise, because the model keeps whole seconds up to the end of year 9999.
- AttendanceService.UpdateContractEmployeeHours: it adds hours only through AccrueContractHours, which takes the employee's runtime class as an explicit input. As written, GetByEmployeeId always builds a base Employee, and Update has no HoursWorked column. So in the source no clock-out ever changes the employee table, and the model proves exactly that.
- Ids.LexicalNextId: the lexicographic generators for LVE and DEP identifiers are not proved fresh. Past 999 they can return an identifier already in use (see Ids.LexicalNextIdCanCollide).
- AttendanceService.NewAttendanceIdFresh: freshness is proved only while the maximum suffix is below int.MaxValue. At int.MaxValue the increment wraps to int.MinValue, and the formatted identifier becomes ATT-2147483648.
- PayrollService GetAll, GetById, GetPayrollsByEmployee, Update and Delete, DepartmentService GetAll, and the GetWorkEndTime constant are not modelled beyond `AttendanceService.WorkEndTime`. They sit outside the modelled core and state nothing beyond the table selections already covered.
- Text.TrimStart and Text.TrimEnd carry no contracts of their own; they are helpers of the integer parsers.

=== FILE: attendance_service.dfy ===
/** The attendance engine: clock-in with lateness detection and same-day
    duplicate rejection, clock-out with contract-hours accrual, and the
    monthly, daily and per-status projections. */
module AttendanceService {
  import opened Common
  import opened Calendar
  import opened Text
  import Ids
  import EmployeeService

  datatype AttendanceStatus = Present | Late | Absent | OnLeave

  /** An attendance record in memory. An unset clock time holds DateTime.MinValue. */
  datatype Attendance = Attendance(
    attendanceId: string,
    employeeId: string,
    employeeName: string,
    date: Date,
    clockInTime: DateTime,
    clockOutTime: DateTime,
    status: AttendanceStatus,
    isAbsentRecord: bool)

  /** One row of the Attendance table; a NULL clock column is None. */
  datatype AttendanceRow = AttendanceRow(
    attendanceId: string,
    employeeId: string,
    employeeName: string,
    date: Date,
    clockInTime: Option<DateTime>,
    clockOutTime: Option<DateTime>,
    status: AttendanceStatus,
    isAbsentRecord: bool)

  type AttendanceTable = seq<AttendanceRow>

  /** GetWorkStartTime (09:00:00) and GetWorkEndTime (17:30:00), in seconds of the day. */
  const WorkStartTime: int := 9 * 3600
  const WorkEndTime: int := 17 * 3600 + 30 * 60

  // ---------------------------------------------------------------------
  // Persisting clock times

  /** How RecordAttendance binds a clock-out time: anything before 1753 is NULL. */
  function ClockColumn(t: DateTime): (c: Option<DateTime>)
    ensures c.None? <==> !SqlStorable(t)
    ensures c.Some? ==> c.value == t
  {
    if !SqlStorable(t) then None else Some(t)
  }

  /** How the monthly and daily readers read a clock column back: NULL is MinValue. */
  function ReadClock(c: Option<DateTime>): (t: DateTime)
    ensures c.None? ==> t == MinValue
    ensures c.Some? ==> t == c.value
  {
    match c
    case None => MinValue
    case Some(t) => t
  }

  /** The "not clocked out" sentinel survives the trip through a NULL column,
      and so does every timestamp the column can hold. */
  lemma ClockColumnRoundTrip(t: DateTime)
    requires t == MinValue || SqlStorable(t)
    ensures ReadClock(ClockColumn(t)) == t
    ensures t == MinValue ==> ClockColumn(t).None?
  {
  }

  function ToRow(a: Attendance): (row: AttendanceRow)
    ensures row.attendanceId == a.attendanceId && row.employeeId == a.employeeId
    ensures row.date == a.date && row.status == a.status && row.isAbsentRecord == a.isAbsentRecord
    ensures row.clockInTime == Some(a.clockInTime) && row.clockOutTime == ClockColumn(a.clockOutTime)
  {
    AttendanceRow(a.attendanceId, a.employeeId, a.employeeName, a.date,
                  Some(a.clockInTime), ClockColumn(a.clockOutTime), a.status, a.isAbsentRecord)
  }

  /** The reader of GetMonthlyAttendance and GetDailyAttendance. */
  function FromRow(row: AttendanceRow): (a: Attendance)
    ensures a.attendanceId == row.attendanceId && a.employeeId == row.employeeId
    ensures a.date == row.date && a.status == row.status && a.isAbsentRecord == row.isAbsentRecord
  {
    Attendance(row.attendanceId, row.employeeId, row.employeeName, row.date,
               ReadClock(row.clockInTime), ReadClock(row.clockOutTime), row.status, row.isAbsentRecord)
  }

  lemma RowRoundTrip(a: Attendance)
    requires SqlStorable(a.clockInTime)
    requires a.clockOutTime == MinValue || SqlStorable(a.clockOutTime)
    ensures FromRow(ToRow(a)) == a
  {
    ClockColumnRoundTrip(a.clockOutTime);
  }

  // ---------------------------------------------------------------------
  // Clock-in

  predicate HasAttendanceToday(rows: AttendanceTable, employeeId: string, today: Date) {
    exists i :: 0 <= i < |rows| && rows[i].employeeId == employeeId && rows[i].date == today
  }

  function AttendanceIds(rows: AttendanceTable): (ids: seq<string>)
    ensures |ids| == |rows|
    ensures forall i :: 0 <= i < |rows| ==> ids[i] == rows[i].attendanceId
  {
    seq(|rows|, i requires 0 <= i < |rows| => rows[i].attendanceId)
  }

  /** GenerateNewAttendanceId: ATT + (numeric MAX of the suffixes + 1). */
  function GenerateNewAttendanceId(rows: AttendanceTable): (r: Result<string>)
    ensures r.Ok? ==> StartsWith(r.value, "ATT")
    ensures r.Ok? <==> Ids.MaxSuffix(AttendanceIds(rows), "ATT").Ok?
  {
    Ids.NumericNextId(AttendanceIds(rows), "ATT")
  }

  /** The status a clock-in at `now` records. */
  function ActualStatus(requested: AttendanceStatus, now: DateTime): AttendanceStatus {
    if requested == Present && now.second > WorkStartTime then Late else requested
  }

  /** The insert binds @Date (today's midnight) and @ClockInTime (the clock)
      as SQL datetime parameters; the clock-out goes through ClockColumn. */
  predicate ClockInStorable(now: DateTime) {
    SqlStorable(AtMidnight(now.date)) && SqlStorable(now)
  }

  /** AttendanceService.RecordAttendance, with the clock reading `now`. */
  function RecordAttendance(rows: AttendanceTable, employeeId: string, employeeName: string,
                            status: AttendanceStatus, now: DateTime): (out: (AttendanceTable, Result<Attendance>))
    ensures HasAttendanceToday(rows, employeeId, now.date) ==> out == (rows, Err(DuplicateAttendance))
    ensures !HasAttendanceToday(rows, employeeId, now.date) && GenerateNewAttendanceId(rows).Ok? && !ClockInStorable(now)
            ==> out == (rows, Err(SqlFailure))
    ensures out.1.Err? ==> out.0 == rows
    ensures out.1.Ok? <==>
              !HasAttendanceToday(rows, employeeId, now.date) && GenerateNewAttendanceId(rows).Ok? && ClockInStorable(now)
    ensures out.1.Ok? ==>
              var a := out.1.value;
              && a.attendanceId == GenerateNewAttendanceId(rows).value
              && a.employeeId == employeeId && a.employeeName == employeeName
              && a.date == now.date && a.clockInTime == now && a.clockOutTime == MinValue
              && !a.isAbsentRecord
              && (status == Present && now.second > WorkStartTime ==> a.status == Late)
              && (status == Present && now.second <= WorkStartTime ==> a.status == Present)
              && (status != Present ==> a.status == status)
              && out.0 == rows + [ToRow(a)]
              && out.0[|rows|].clockOutTime.None?
              && FromRow(out.0[|rows|]) == a
  {
    if HasAttendanceToday(rows, employeeId, now.date) then (rows, Err(DuplicateAttendance))
    else match GenerateNewAttendanceId(rows)
      case Err(e) => (rows, Err(e))
      case Ok(id) =>
        if !ClockInStorable(now) then (rows, Err(SqlFailure))
        else
          var a := Attendance(id, employeeId, employeeName, now.date, now, MinValue,
                              ActualStatus(status, now), false);
          RowRoundTrip(a);
          (rows + [ToRow(a)], Ok(a))
  }

  /** Once a clock-in succeeds, a second one for the same employee and day fails
      and leaves the table as the first one left it. */
  lemma SecondClockInSameDayFails(rows: AttendanceTable, employeeId: string, name: string,
                                  s1: AttendanceStatus, s2: AttendanceStatus, t1: DateTime, t2: DateTime)
    requires t2.date == t1.date
    ensures var (after, first) := RecordAttendance(rows, employeeId, name, s1, t1);
            first.Ok? ==> RecordAttendance(after, employeeId, name, s2, t2) == (after, Err(DuplicateAttendance))
  {
    var (after, first) := RecordAttendance(rows, employeeId, name, s1, t1);
    if first.Ok? {
      assert after[|rows|].employeeId == employeeId && after[|rows|].date == t2.date;
    }
  }

  /** The new identifier is not in use, and its number tops every existing one,
      as long as the current maximum is below int.MaxValue. */
  lemma NewAttendanceIdFresh(rows: AttendanceTable)
    requires Ids.MaxSuffix(AttendanceIds(rows), "ATT").Ok?
    requires Ids.MaxSuffix(AttendanceIds(rows), "ATT").value.Some? ==>
               Ids.MaxSuffix(AttendanceIds(rows), "ATT").value.value < Int32Max
    ensures GenerateNewAttendanceId(rows).Ok?
    ensures forall i :: 0 <= i < |rows| ==> rows[i].attendanceId != GenerateNewAttendanceId(rows).value
  {
    var ids := AttendanceIds(rows);
    Ids.NumericNextIdFresh(ids, "ATT");
    forall i | 0 <= i < |rows|
      ensures rows[i].attendanceId != GenerateNewAttendanceId(rows).value
    {
      assert ids[i] == rows[i].attendanceId;
    }
  }

  lemma FirstAttendanceId()
    ensures GenerateNewAttendanceId([]) == Ok("ATT001")
  {
    assert AttendanceIds([]) == [];
    assert Ids.MaxSuffix([], "ATT") == Ok(None);
    assert Ids.NumericNextId([], "ATT") == Ok(Ids.NextId("ATT", 0));
    Ids.NextIdAfterZero("ATT");
    assert "ATT" + "001" == "ATT001";
  }

  // ---------------------------------------------------------------------
  // Clock-out and accrual

  /** The accrual step once the employee has been looked up. It returns the
      employee to write back, or None when UpdateContractEmployeeHours returns
      without writing: a clock time is the sentinel, there is no employee, the
      type string is not "Contract", or the object is not a ContractEmployee. */
  function AccrueContractHours(a: Attendance, employee: Option<EmployeeService.Employee>): (r: Option<EmployeeService.Employee>)
    ensures r.Some? <==>
              && a.clockInTime != MinValue && a.clockOutTime != MinValue
              && employee.Some? && employee.value.employeeType == Some("Contract")
              && employee.value.variant.ContractEmployee?
    ensures r.Some? ==>
              && r.value.variant.ContractEmployee?
              && r.value.variant.hoursWorked == employee.value.variant.hoursWorked + ElapsedHours(a.clockInTime, a.clockOutTime)
              && r.value.variant.hourlyRate == employee.value.variant.hourlyRate
              && r.value == employee.value.(variant := r.value.variant)
  {
    if a.clockInTime == MinValue || a.clockOutTime == MinValue then None
    else match employee
      case None => None
      case Some(e) =>
        if e.employeeType != Some("Contract") then None
        else match e.variant
          case ContractEmployee(rate, hours) =>
            Some(e.(variant := EmployeeService.ContractEmployee(rate, hours + ElapsedHours(a.clockInTime, a.clockOutTime))))
          case _ => None
  }

  /** Accruing twice adds both shifts. */
  lemma AccrualAddsUp(a1: Attendance, a2: Attendance, e: EmployeeService.Employee)
    requires AccrueContractHours(a1, Some(e)).Some?
    requires a2.clockInTime != MinValue && a2.clockOutTime != MinValue
    ensures var once := AccrueContractHours(a1, Some(e)).value;
            var twice := AccrueContractHours(a2, Some(once));
            && twice.Some?
            && twice.value.variant.hoursWorked ==
                 e.variant.hoursWorked + ElapsedHours(a1.clockInTime, a1.clockOutTime)
                                       + ElapsedHours(a2.clockInTime, a2.clockOutTime)
  {
  }

  /** Writing the accrued employee back through EmployeeService.Update stores
      nothing of the accrual: the table has no HoursWorked column. */
  lemma AccrualIsNotPersisted(emps: EmployeeService.EmployeeTable, a: Attendance, e: EmployeeService.Employee)
    requires AccrueContractHours(a, Some(e)).Some?
    ensures EmployeeService.Update(emps, AccrueContractHours(a, Some(e)).value) == EmployeeService.Update(emps, e)
  {
    EmployeeService.UpdateIgnoresVariant(emps, e, AccrueContractHours(a, Some(e)).value.variant);
  }

  /** AttendanceService.UpdateContractEmployeeHours: looks the employee up with
      GetByEmployeeId and, when the accrual applies, writes it back with Update. */
  function UpdateContractEmployeeHours(emps: EmployeeService.EmployeeTable, a: Attendance): (out: (EmployeeService.EmployeeTable, Result<()>))
    ensures out.0 == emps
    ensures out.1.Err? <==> a.clockInTime != MinValue && a.clockOutTime != MinValue && a.employeeId == ""
  {
    if a.clockInTime == MinValue || a.clockOutTime == MinValue then (emps, Ok(()))
    else match EmployeeService.GetByEmployeeId(emps, a.employeeId)
      case Err(e) => (emps, Err(e))
      case Ok(found) =>
        match AccrueContractHours(a, found)
        case None => (emps, Ok(()))
        case Some(ce) =>
          var (updated, r) := EmployeeService.Update(emps, ce);
          match r
          case Err(e) => (updated, Err(e))
          case Ok(_) => (updated, Ok(()))
  }

  /** As written, the ContractEmployee branch never fires: GetByEmployeeId
      always builds a base-class Employee, so a clock-out never changes the
      employee table. */
  lemma AccrualNeverFiresAsWritten(emps: EmployeeService.EmployeeTable, a: Attendance)
    ensures AccrueContractHours(a, if EmployeeService.GetByEmployeeId(emps, a.employeeId).Ok?
                                   then EmployeeService.GetByEmployeeId(emps, a.employeeId).value
                                   else None).None?
  {
  }

  function ReadByIdRow(row: AttendanceRow): (r: Result<Attendance>)
    ensures r.Ok? <==> row.clockInTime.Some? && row.clockOutTime.Some?
    ensures r.Ok? ==> r.value == FromRow(row)
  {
    if row.clockInTime.None? || row.clockOutTime.None? then Err(InvalidCast)
    else Ok(FromRow(row))
  }

  predicate HasAttendanceId(rows: AttendanceTable, id: string) {
    exists i :: 0 <= i < |rows| && rows[i].attendanceId == id
  }

  /** Row `i` is the first one carrying that identifier. */
  predicate FirstWithId(rows: AttendanceTable, id: string, i: int) {
    0 <= i < |rows| && rows[i].attendanceId == id && forall j :: 0 <= j < i ==> rows[j].attendanceId != id
  }

  /** AttendanceService.GetAttendanceById: the first row with that identifier,
      read with Convert.ToDateTime (which rejects a NULL clock column). */
  function GetAttendanceById(rows: AttendanceTable, id: string): (r: Result<Attendance>)
    ensures !HasAttendanceId(rows, id) <==> r == Err(NotFound)
    ensures r.Err? ==> r == Err(NotFound) || r == Err(InvalidCast)
    ensures HasAttendanceId(rows, id) ==> exists i :: FirstWithId(rows, id, i) && r == ReadByIdRow(rows[i])
    ensures r.Ok? ==> r.value.attendanceId == id && (exists i :: 0 <= i < |rows| && r.value == FromRow(rows[i]))
  {
    if |rows| == 0 then Err(NotFound)
    else if rows[0].attendanceId == id then ReadByIdRow(rows[0])
    else
      assert forall i :: 1 <= i < |rows| ==> rows[i] == rows[1..][i - 1];
      var rest := GetAttendanceById(rows[1..], id);
      assert HasAttendanceId(rows[1..], id) ==> exists i :: FirstWithId(rows, id, i) && rest == ReadByIdRow(rows[i]) by {
        if HasAttendanceId(rows[1..], id) {
          var i :| FirstWithId(rows[1..], id, i) && rest == ReadByIdRow(rows[1..][i]);
          assert FirstWithId(rows, id, i + 1);
        }
      }
      rest
  }

  /** UPDATE Attendance SET ClockOutTime = now WHERE AttendanceId = id. */
  function SetClockOut(rows: AttendanceTable, id: string, now: DateTime): (r: AttendanceTable)
    ensures |r| == |rows|
    ensures forall i :: 0 <= i < |rows| && rows[i].attendanceId != id ==> r[i] == rows[i]
    ensures forall i :: 0 <= i < |rows| && rows[i].attendanceId == id ==> r[i] == rows[i].(clockOutTime := Some(now))
  {
    seq(|rows|, i requires 0 <= i < |rows| =>
          if rows[i].attendanceId == id then rows[i].(clockOutTime := Some(now)) else rows[i])
  }

  /** After the clock-out UPDATE, reading the record back by its identifier
      succeeds exactly when the first row with that identifier has a
      clock-in, and then yields that record with the new clock-out time;
      otherwise it meets the NULL clock-in (an invalid cast). */
  lemma ReadAfterClockOut(att: AttendanceTable, id: string, now: DateTime)
    requires HasAttendanceId(att, id)
    ensures var read := GetAttendanceById(SetClockOut(att, id, now), id);
            && (read.Err? ==> read == Err(InvalidCast))
            && (read.Ok? <==> exists i :: FirstWithId(att, id, i) && att[i].clockInTime.Some?)
            && (read.Ok? ==> read.value.attendanceId == id && read.value.clockOutTime == now)
  {
    var updated := SetClockOut(att, id, now);
    var k :| 0 <= k < |att| && att[k].attendanceId == id;
    assert updated[k].attendanceId == id;
    var read := GetAttendanceById(updated, id);
    var i :| FirstWithId(updated, id, i) && read == ReadByIdRow(updated[i]);
    assert FirstWithId(att, id, i) by {
      forall j | 0 <= j < i
        ensures att[j].attendanceId != id
      {
        assert updated[j].attendanceId == att[j].attendanceId;
      }
    }
    assert updated[i] == att[i].(clockOutTime := Some(now));
  }

  /** AttendanceService.UpdateClockOut, with the clock reading `now`. The
      attendance update happens first and stays even when the lookup or the
      accrual fails afterwards; a clock before 1753 fails the update itself. */
  function UpdateClockOut(att: AttendanceTable, emps: EmployeeService.EmployeeTable, id: string, now: DateTime)
    : (out: (AttendanceTable, EmployeeService.EmployeeTable, Result<()>))
    ensures !SqlStorable(now) ==> out == (att, emps, Err(SqlFailure))
    ensures SqlStorable(now) ==> out.0 == SetClockOut(att, id, now)
    ensures SqlStorable(now) && !HasAttendanceId(att, id) ==> out == (att, emps, Err(NotFound))
    ensures out.1 == emps
    ensures SqlStorable(now) && HasAttendanceId(att, id) ==>
              var read := GetAttendanceById(out.0, id);
              && (read.Err? ==> out.2 == Err(InvalidCast))
              && (read.Ok? ==> && read.value.clockOutTime == now
                               && (out.2.Ok? <==> read.value.clockInTime == MinValue || read.value.employeeId != ""))
  {
    var updated := SetClockOut(att, id, now);
    if !SqlStorable(now) then (att, emps, Err(SqlFailure))
    else if !HasAttendanceId(att, id) then
      assert updated == att;
      (updated, emps, Err(NotFound))
    else
      ReadAfterClockOut(att, id, now);
      assert now != MinValue;
      match GetAttendanceById(updated, id)
      case Err(e) => (updated, emps, Err(e))
      case Ok(a) =>
        var (emps', r) := UpdateContractEmployeeHours(emps, a);
        (updated, emps', r)
  }

  /** Clocking out again is not guarded: the second call overwrites the time
      the first one wrote, as if only the second had happened. */
  lemma ClockOutTwiceOverwrites(att: AttendanceTable, emps: EmployeeService.EmployeeTable, id: string, t1: DateTime, t2: DateTime)
    requires SqlStorable(t2)
    ensures UpdateClockOut(UpdateClockOut(att, emps, id, t1).0, emps, id, t2).0 == UpdateClockOut(att, emps, id, t2).0
  {
    var once := SetClockOut(att, id, t1);
    var twice := SetClockOut(once, id, t2);
    var direct := SetClockOut(att, id, t2);
    assert |twice| == |direct|;
    forall i | 0 <= i < |att|
      ensures twice[i] == direct[i]
    {
    }
  }

  // ---------------------------------------------------------------------
  // Projections

  predicate InMonthRow(row: AttendanceRow, year: int, month: int) {
    InMonth(row.date, year, month)
  }

  /** AttendanceService.GetMonthlyAttendance: the records whose date falls in
      that year and month, in table order. */
  function GetMonthlyAttendance(rows: AttendanceTable, year: int, month: int): (r: seq<Attendance>)
    ensures |r| == Count(rows, (row: AttendanceRow) => InMonthRow(row, year, month))
    ensures forall k :: 0 <= k < |r| ==> InMonth(r[k].date, year, month)
    ensures forall k :: 0 <= k < |r| ==>
              exists i :: 0 <= i < |rows| && InMonthRow(rows[i], year, month) && r[k] == FromRow(rows[i])
    ensures forall i :: 0 <= i < |rows| && InMonthRow(rows[i], year, month) ==> FromRow(rows[i]) in r
  {
    Select(rows, (row: AttendanceRow) => InMonthRow(row, year, month), FromRow)
  }

  /** AttendanceService.GetEmployeeAttendance: the monthly records of one
      employee, each as often as the monthly list holds it. */
  function GetEmployeeAttendance(rows: AttendanceTable, employeeId: string, year: int, month: int): (r: seq<Attendance>)
    ensures var monthly := GetMonthlyAttendance(rows, year, month);
            && |r| == Count(monthly, (a: Attendance) => a.employeeId == employeeId)
            && multiset(r) <= multiset(monthly)
            && (forall k :: 0 <= k < |r| ==> r[k] in monthly && r[k].employeeId == employeeId)
            && (forall i :: 0 <= i < |monthly| && monthly[i].employeeId == employeeId ==> monthly[i] in r)
  {
    FilterCount(GetMonthlyAttendance(rows, year, month), (a: Attendance) => a.employeeId == employeeId);
    Filter(GetMonthlyAttendance(rows, year, month), (a: Attendance) => a.employeeId == employeeId)
  }

  predicate EmployeeMonthRow(row: AttendanceRow, employeeId: string, year: int, month: int) {
    InMonthRow(row, year, month) && row.employeeId == employeeId
  }

  /** Narrowing the monthly list to one employee is the single query
      "WHERE month AND EmployeeId", read in table order. */
  lemma EmployeeAttendanceInOnePass(rows: AttendanceTable, employeeId: string, year: int, month: int)
    ensures GetEmployeeAttendance(rows, employeeId, year, month)
            == Select(rows, (row: AttendanceRow) => EmployeeMonthRow(row, employeeId, year, month), FromRow)
  {
    FilterOfSelect(rows, (row: AttendanceRow) => InMonthRow(row, year, month), FromRow,
                   (a: Attendance) => a.employeeId == employeeId,
                   (row: AttendanceRow) => EmployeeMonthRow(row, employeeId, year, month));
  }

  /** AttendanceService.GetDailyAttendance: the records dated date.Date. The
      @Date parameter fails for a day before 1753. */
  function GetDailyAttendance(rows: AttendanceTable, date: DateTime): (r: Result<seq<Attendance>>)
    ensures r.Err? <==> !SqlStorable(AtMidnight(date.date))
    ensures r.Err? ==> r.error == SqlFailure
    ensures r.Ok? ==>
              && |r.value| == Count(rows, (row: AttendanceRow) => row.date == date.date)
              && (forall k :: 0 <= k < |r.value| ==>
                    exists i :: 0 <= i < |rows| && rows[i].date == date.date && r.value[k] == FromRow(rows[i]))
              && (forall i :: 0 <= i < |rows| && rows[i].date == date.date ==> FromRow(rows[i]) in r.value)
  {
    if !SqlStorable(AtMidnight(date.date)) then Err(SqlFailure)
    else Ok(Select(rows, (row: AttendanceRow) => row.date == date.date, FromRow))
  }

  /** AttendanceService.GetEmployeeDailyAttendance: the daily records of one
      employee, failing exactly when the daily query does. */
  function GetEmployeeDailyAttendance(rows: AttendanceTable, employeeId: string, date: DateTime): (r: Result<seq<Attendance>>)
    ensures r.Err? <==> !SqlStorable(AtMidnight(date.date))
    ensures r.Err? ==> r.error == SqlFailure
    ensures r.Ok? ==>
              var daily := GetDailyAttendance(rows, date).value;
              && |r.value| == Count(daily, (a: Attendance) => a.employeeId == employeeId)
              && multiset(r.value) <= multiset(daily)
              && (forall k :: 0 <= k < |r.value| ==> r.value[k] in daily && r.value[k].employeeId == employeeId)
              && (forall i :: 0 <= i < |daily| && daily[i].employeeId == employeeId ==> daily[i] in r.value)
  {
    var daily :- GetDailyAttendance(rows, date);
    FilterCount(daily, (a: Attendance) => a.employeeId == employeeId);
    Ok(Filter(daily, (a: Attendance) => a.employeeId == employeeId))
  }

  /** A clock-in shows up in that day's projection. */
  lemma RecordedAppearsInDailyAttendance(rows: AttendanceTable, employeeId: string, name: string,
                                         status: AttendanceStatus, now: DateTime)
    ensures var (after, r) := RecordAttendance(rows, employeeId, name, status, now);
            r.Ok? ==> GetDailyAttendance(after, now).Ok? && r.value in GetDailyAttendance(after, now).value
  {
    var (after, r) := RecordAttendance(rows, employeeId, name, status, now);
    if r.Ok? {
      assert after[|rows|] == ToRow(r.value);
      assert FromRow(after[|rows|]) == r.value;
    }
  }

  /** ... and in the clocking employee's own daily projection. */
  lemma RecordedAppearsInEmployeeDailyAttendance(rows: AttendanceTable, employeeId: string, name: string,
                                                 status: AttendanceStatus, now: DateTime)
    ensures var (after, r) := RecordAttendance(rows, employeeId, name, status, now);
            r.Ok? ==>
              && GetEmployeeDailyAttendance(after, employeeId, now).Ok?
              && r.value in GetEmployeeDailyAttendance(after, employeeId, now).value
  {
    RecordedAppearsInDailyAttendance(rows, employeeId, name, status, now);
  }

  // ---------------------------------------------------------------------
  // Summary

  function CountStatus(records: seq<Attendance>, st: AttendanceStatus): nat {
    Count(records, (a: Attendance) => a.status == st)
  }

  /** `summary` holds, for each status occurring in `records`, how many
      records carry it, and no other key. */
  predicate IsSummaryOf(summary: map<AttendanceStatus, nat>, records: seq<Attendance>) {
    forall st :: (st in summary <==> CountStatus(records, st) > 0)
                 && (st in summary ==> summary[st] == CountStatus(records, st))
  }

  /** The summary after counting one more record with status `key`. */
  function Bump(summary: map<AttendanceStatus, nat>, key: AttendanceStatus): map<AttendanceStatus, nat> {
    summary[key := (if key in summary then summary[key] else 0) + 1]
  }

  lemma CountStatusSnoc(records: seq<Attendance>, x: Attendance, st: AttendanceStatus)
    ensures CountStatus(records + [x], st) == CountStatus(records, st) + (if x.status == st then 1 else 0)
  {
    CountAppend(records, [x], (a: Attendance) => a.status == st);
    assert [x][1..] == [];
  }

  lemma SummaryStep(summary: map<AttendanceStatus, nat>, records: seq<Attendance>, x: Attendance)
    requires IsSummaryOf(summary, records)
    ensures IsSummaryOf(Bump(summary, x.status), records + [x])
  {
    forall st
      ensures CountStatus(records + [x], st) == CountStatus(records, st) + (if x.status == st then 1 else 0)
    {
      CountStatusSnoc(records, x, st);
    }
  }

  /** The summary of a list of records: one entry per status that occurs, holding
      how many records carry it. */
  method SummarizeByStatus(records: seq<Attendance>) returns (summary: map<AttendanceStatus, nat>)
    ensures forall st :: st in summary <==> CountStatus(records, st) > 0
    ensures forall st :: st in summary ==> summary[st] == CountStatus(records, st)
  {
    summary := map[];
    var i := 0;
    while i < |records|
      invariant 0 <= i <= |records|
      invariant IsSummaryOf(summary, records[..i])
    {
      SummaryStep(summary, records[..i], records[i]);
      assert records[..i + 1] == records[..i] + [records[i]];
      summary := Bump(summary, records[i].status);
      i := i + 1;
    }
    assert records[..i] == records;
  }

  /** AttendanceService.GetAttendanceSummary. */
  method GetAttendanceSummary(rows: AttendanceTable, year: int, month: int) returns (summary: map<AttendanceStatus, nat>)
    ensures forall st :: st in summary <==> CountStatus(GetMonthlyAttendance(rows, year, month), st) > 0
    ensures forall st :: st in summary ==> summary[st] == CountStatus(GetMonthlyAttendance(rows, year, month), st)
  {
    summary := SummarizeByStatus(GetMonthlyAttendance(rows, year, month));
  }

  function SummaryValue(summary: map<AttendanceStatus, nat>, st: AttendanceStatus): nat {
    if st in summary then summary[st] else 0
  }

  /** The four per-status counts partition the records. */
  lemma {:induction false} StatusCountsPartition(records: seq<Attendance>)
    ensures CountStatus(records, Present) + CountStatus(records, Late)
            + CountStatus(records, Absent) + CountStatus(records, OnLeave) == |records|
  {
    if |records| > 0 {
      StatusCountsPartition(records[1..]);
    }
  }

  /** The summary's counts add up to the number of records in that month. */
  lemma SummaryTotalsMonth(rows: AttendanceTable, year: int, month: int, summary: map<AttendanceStatus, nat>)
    requires forall st :: st in summary <==> CountStatus(GetMonthlyAttendance(rows, year, month), st) > 0
    requires forall st :: st in summary ==> summary[st] == CountStatus(GetMonthlyAttendance(rows, year, month), st)
    ensures SummaryValue(summary, Present) + SummaryValue(summary, Late)
            + SummaryValue(summary, Absent) + SummaryValue(summary, OnLeave)
            == |GetMonthlyAttendance(rows, year, month)|
  {
    var monthly := GetMonthlyAttendance(rows, year, month);
    StatusCountsPartition(monthly);
    assert forall st :: SummaryValue(summary, st) == CountStatus(monthly, st);
  }
}

=== FILE: calendar.dfy ===
/** Dates and timestamps as the services use them: a proleptic Gregorian
    calendar date and a DateTime made of a date and a second of the day. */
module Calendar {
  import opened Common

  datatype Date = Date(year: int, month: int, day: int)

  /** A DateTime truncated to whole seconds; `second` counts from midnight. */
  datatype DateTime = DateTime(date: Date, second: int)

  const SecondsPerDay: int := 86400

  predicate IsLeapYear(y: int) {
    y % 4 == 0 && (y % 100 != 0 || y % 400 == 0)
  }

  function DaysInMonth(y: int, m: int): (n: int)
    ensures 1 <= m <= 12 ==> 28 <= n <= 31
  {
    if m == 2 then (if IsLeapYear(y) then 29 else 28)
    else if m == 4 || m == 6 || m == 9 || m == 11 then 30
    else 31
  }

  /** The range of System.DateTime: years 1 through 9999. */
  predicate ValidDate(d: Date) {
    && 1 <= d.year <= 9999
    && 1 <= d.month <= 12
    && 1 <= d.day <= DaysInMonth(d.year, d.month)
  }

  predicate ValidDateTime(t: DateTime) {
    ValidDate(t.date) && 0 <= t.second < SecondsPerDay
  }

  /** Chronological order on dates: year, then month, then day. */
  predicate DateLt(a: Date, b: Date) {
    || a.year < b.year
    || (a.year == b.year && a.month < b.month)
    || (a.year == b.year && a.month == b.month && a.day < b.day)
  }

  predicate DateLe(a: Date, b: Date) {
    DateLt(a, b) || a == b
  }

  /** Chronological order on timestamps. */
  predicate DateTimeLt(a: DateTime, b: DateTime) {
    DateLt(a.date, b.date) || (a.date == b.date && a.second < b.second)
  }

  /** A timestamp not before another one has a date not before the other's date. */
  lemma NotBeforeDate(a: DateTime, b: DateTime)
    requires !DateTimeLt(b, a)
    ensures DateLe(a.date, b.date)
  {
  }

  predicate DateTimeLe(a: DateTime, b: DateTime) {
    DateTimeLt(a, b) || a == b
  }

  /** DateTime.MinValue, 0001-01-01 00:00:00, which the attendance engine
      uses as its "not clocked out" sentinel. */
  const MinValue: DateTime := DateTime(Date(1, 1, 1), 0)

  /** new DateTime(1753, 1, 1): the earliest value an SQL datetime column holds. */
  const SqlMinDate: Date := Date(1753, 1, 1)

  /** The midnight timestamp of a date (DateTime.Date / DateTime.Today). */
  function AtMidnight(d: Date): (t: DateTime)
    ensures t.date == d && t.second == 0
  {
    DateTime(d, 0)
  }

  const SqlMinDateTime: DateTime := AtMidnight(SqlMinDate)

  /** Whether a DateTime bound to a command parameter reaches the server: the
      parameter is typed as SQL datetime, and a value before 1753-01-01 fails
      with an SqlDateTime overflow when the command executes. */
  predicate SqlStorable(t: DateTime) {
    !DateTimeLt(t, SqlMinDateTime)
  }

  /** DateTime.AddYears: same month and day, the day clamped to the length of
      the target month (29 February becomes 28 February). Out of range past 9999. */
  function AddYears(d: Date, n: int): (r: Result<Date>)
    requires ValidDate(d)
    ensures r.Ok? <==> 1 <= d.year + n <= 9999
    ensures r.Ok? ==> ValidDate(r.value) && r.value.year == d.year + n && r.value.month == d.month
    ensures r.Ok? && d.day <= DaysInMonth(d.year + n, d.month) ==> r.value.day == d.day
    ensures r.Ok? && d.day > DaysInMonth(d.year + n, d.month) ==> r.value.day == DaysInMonth(d.year + n, d.month)
  {
    var y := d.year + n;
    if 1 <= y <= 9999 then
      var last := DaysInMonth(y, d.month);
      Ok(Date(y, d.month, if d.day <= last then d.day else last))
    else Err(ArgumentOutOfRange)
  }

  /** new DateTime(year, month, 1), which throws for a year or month out of range. */
  function FirstOfMonth(year: int, month: int): (r: Result<Date>)
    ensures r.Ok? <==> 1 <= year <= 9999 && 1 <= month <= 12
    ensures r.Ok? ==> ValidDate(r.value) && r.value == Date(year, month, 1)
  {
    if 1 <= year <= 9999 && 1 <= month <= 12 then Ok(Date(year, month, 1))
    else Err(ArgumentOutOfRange)
  }

  /** YEAR(d) = year AND MONTH(d) = month. */
  predicate InMonth(d: Date, year: int, month: int) {
    d.year == year && d.month == month
  }

  function DaysBeforeYear(y: int): int {
    var p := y - 1;
    365 * p + p / 4 - p / 100 + p / 400
  }

  function DaysBeforeMonth(y: int, m: int): int
    decreases m
  {
    if m <= 1 then 0 else DaysBeforeMonth(y, m - 1) + DaysInMonth(y, m - 1)
  }

  /** Days elapsed since 0001-01-01, as DateTime ticks count them. */
  function DayNumber(d: Date): int {
    DaysBeforeYear(d.year) + DaysBeforeMonth(d.year, d.month) + d.day - 1
  }

  /** Seconds elapsed since DateTime.MinValue. */
  function Instant(t: DateTime): int {
    DayNumber(t.date) * SecondsPerDay + t.second
  }

  /** (later - earlier).TotalHours. */
  function ElapsedHours(earlier: DateTime, later: DateTime): real {
    (Instant(later) - Instant(earlier)) as real / 3600.0
  }

  lemma {:induction false} DaysBeforeMonthBounds(y: int, m: int)
    requires 1 <= m <= 13
    ensures 28 * (m - 1) <= DaysBeforeMonth(y, m) <= 31 * (m - 1)
  {
    if m > 1 {
      DaysBeforeMonthBounds(y, m - 1);
    }
  }

  lemma {:induction false} DaysBeforeMonthStep(y: int, m: int)
    requires 1 <= m <= 12
    ensures DaysBeforeMonth(y, m + 1) == DaysBeforeMonth(y, m) + DaysInMonth(y, m)
  {
  }

  lemma DaysBeforeYearStep(y: int)
    requires y >= 1
    ensures DaysBeforeYear(y + 1) == DaysBeforeYear(y) + (if IsLeapYear(y) then 366 else 365)
  {
    var p := y - 1;
    Quotient4Step(y);
    Quotient100Step(y);
    Quotient400Step(y);
    DivisibilityChain(y);
    var leap := (if y % 4 == 0 then 1 else 0) - (if y % 100 == 0 then 1 else 0) + (if y % 400 == 0 then 1 else 0);
    assert leap == (if IsLeapYear(y) then 1 else 0);
    assert DaysBeforeYear(y + 1) == 365 * p + 365 + y / 4 - y / 100 + y / 400;
  }

  lemma DivisibilityChain(y: int)
    ensures y % 400 == 0 ==> y % 100 == 0
    ensures y % 100 == 0 ==> y % 4 == 0
  {
    if y % 400 == 0 {
      assert y == 400 * (y / 400);
      assert y == 100 * (4 * (y / 400));
    }
    if y % 100 == 0 {
      assert y == 100 * (y / 100);
      assert y == 4 * (25 * (y / 100));
    }
  }

  lemma Quotient4Step(y: int)
    ensures y / 4 == (y - 1) / 4 + (if y % 4 == 0 then 1 else 0)
  {
  }

  lemma Quotient100Step(y: int)
    ensures y / 100 == (y - 1) / 100 + (if y % 100 == 0 then 1 else 0)
  {
  }

  lemma Quotient400Step(y: int)
    ensures y / 400 == (y - 1) / 400 + (if y % 400 == 0 then 1 else 0)
  {
  }

  /** Within one year, the day number grows with the date. */
  lemma {:induction false} DayNumberWithinYear(a: Date, b: Date)
    requires ValidDate(a) && ValidDate(b) && a.year == b.year && DateLt(a, b)
    ensures DayNumber(a) < DayNumber(b)
  {
    if a.month < b.month {
      MonthGap(a.year, a.month, b.month);
    }
  }

  lemma {:induction false} MonthGap(y: int, m: int, n: int)
    requires 1 <= m < n <= 12
    ensures DaysBeforeMonth(y, m) + DaysInMonth(y, m) <= DaysBeforeMonth(y, n)
    decreases n - m
  {
    if m + 1 < n {
      MonthGap(y, m + 1, n);
      assert DaysInMonth(y, m + 1) >= 28;
    }
  }

  /** The last day of a year precedes the first day of the next. */
  lemma {:induction false} YearEndBound(d: Date)
    requires ValidDate(d)
    ensures DayNumber(d) < DaysBeforeYear(d.year + 1)
  {
    DaysBeforeYearStep(d.year);
    if d.month < 12 {
      MonthGap(d.year, d.month, 12);
    }
    assert DaysBeforeMonth(d.year, 12) == DaysBeforeMonth(d.year, 11) + 30;
    DaysBeforeMonthBounds(d.year, 11);
    if IsLeapYear(d.year) {
      assert DaysBeforeMonth(d.year, 12) == 335;
    } else {
      assert DaysBeforeMonth(d.year, 12) == 334;
    }
  }

  lemma {:induction false} DaysBeforeYearMonotone(y: int, z: int)
    requires 1 <= y <= z
    ensures DaysBeforeYear(y) <= DaysBeforeYear(z)
    decreases z - y
  {
    if y < z {
      DaysBeforeYearStep(y);
      DaysBeforeYearMonotone(y + 1, z);
    }
  }

  /** Chronological order of valid dates agrees with their day numbers, so
      elapsed time between ordered timestamps is never negative. */
  lemma DayNumberMonotone(a: Date, b: Date)
    requires ValidDate(a) && ValidDate(b) && DateLt(a, b)
    ensures DayNumber(a) < DayNumber(b)
  {
    if a.year == b.year {
      DayNumberWithinYear(a, b);
    } else {
      YearEndBound(a);
      DaysBeforeYearMonotone(a.year + 1, b.year);
      DaysBeforeMonthBounds(b.year, b.month);
    }
  }

  lemma ElapsedHoursNonNegative(earlier: DateTime, later: DateTime)
    requires ValidDateTime(earlier) && ValidDateTime(later) && DateTimeLe(earlier, later)
    ensures ElapsedHours(earlier, later) >= 0.0
  {
    if DateLt(earlier.date, later.date) {
      DayNumberMonotone(earlier.date, later.date);
    }
  }
}

=== FILE: common.dfy ===
/** Failure-carrying results shared by every service of the HR system. */
module Common {

  datatype Option<+T> = None | Some(value: T)

  /** The exceptions the services raise, one constructor per kind. */
  datatype Error =
    | ValidationError      // ValidationException: inverted leave range, out-of-bounds dates
    | NotFound             // EntityNotFoundException: unknown employee or attendance record
    | DuplicateAttendance  // HRSystemException raised on a second clock-in the same day
    | ArgumentNull         // ArgumentNullException: a null or empty key argument
    | InvalidCast          // InvalidCastException: Convert.ToDateTime applied to a NULL column
    | ArgumentOutOfRange   // ArgumentOutOfRangeException: new DateTime(year, month, 1) out of range
    | SqlFailure           // SqlException: a CAST inside a query failed

  datatype Result<+T> = Ok(value: T) | Err(error: Error) {
    predicate IsFailure() { Err? }

    function PropagateFailure<U>(): Result<U>
      requires Err?
    {
      Err(error)
    }

    function Extract(): T
      requires Ok?
    {
      value
    }
  }

  /** A C# string that may be null; `None` is null. */
  type NullableString = Option<string>

  /** The `s ?? ""` coalescing the services apply before writing a column. */
  function OrEmpty(s: NullableString): (r: string)
    ensures s.Some? ==> r == s.value
    ensures s.None? ==> r == ""
  {
    match s
    case Some(v) => v
    case None => ""
  }

  /** Rows of `rows` kept by `keep`, in order: a SELECT ... WHERE. */
  function Filter<T>(rows: seq<T>, keep: T -> bool): (r: seq<T>)
    ensures |r| <= |rows|
    ensures forall i :: 0 <= i < |r| ==> r[i] in rows && keep(r[i])
    ensures forall i :: 0 <= i < |rows| && keep(rows[i]) ==> rows[i] in r
    ensures multiset(r) <= multiset(rows)
  {
    if |rows| == 0 then []
    else
      assert rows == [rows[0]] + rows[1..];
      if keep(rows[0]) then [rows[0]] + Filter(rows[1..], keep)
      else Filter(rows[1..], keep)
  }

  /** The number of rows satisfying `p`. */
  function Count<T>(rows: seq<T>, p: T -> bool): (n: nat)
    ensures n <= |rows|
    ensures n == 0 <==> forall i :: 0 <= i < |rows| ==> !p(rows[i])
    ensures n == |rows| <==> forall i :: 0 <= i < |rows| ==> p(rows[i])
  {
    if |rows| == 0 then 0
    else (if p(rows[0]) then 1 else 0) + Count(rows[1..], p)
  }

  lemma {:induction false} FilterCount<T>(rows: seq<T>, keep: T -> bool)
    ensures |Filter(rows, keep)| == Count(rows, keep)
  {
    if |rows| > 0 {
      FilterCount(rows[1..], keep);
    }
  }

  lemma {:induction false} CountAppend<T>(a: seq<T>, b: seq<T>, p: T -> bool)
    ensures Count(a + b, p) == Count(a, p) + Count(b, p)
  {
    if |a| == 0 {
      assert a + b == b;
    } else {
      assert (a + b)[1..] == a[1..] + b;
      CountAppend(a[1..], b, p);
    }
  }

  /** The rows kept by `keep`, each read through `read`, in table order: a
      SELECT ... WHERE followed by the reader loop. */
  function Select<A, B>(rows: seq<A>, keep: A -> bool, read: A -> B): (r: seq<B>)
    ensures |r| == Count(rows, keep)
    ensures forall k :: 0 <= k < |r| ==> exists i :: 0 <= i < |rows| && keep(rows[i]) && r[k] == read(rows[i])
    ensures forall i :: 0 <= i < |rows| && keep(rows[i]) ==> read(rows[i]) in r
  {
    if |rows| == 0 then []
    else
      var rest := Select(rows[1..], keep, read);
      assert forall i :: 1 <= i < |rows| ==> rows[i] == rows[1..][i - 1];
      if keep(rows[0]) then
        var r := [read(rows[0])] + rest;
        assert forall k :: 1 <= k < |r| ==> r[k] == rest[k - 1];
        r
      else rest
  }

  /** A projection holds each value exactly as often as the kept rows read as
      it, so equal rows are never merged and no value is invented. */
  lemma {:induction false} SelectMultiplicity<A, B>(rows: seq<A>, keep: A -> bool, read: A -> B, v: B)
    ensures multiset(Select(rows, keep, read))[v] == Count(rows, (row: A) => keep(row) && read(row) == v)
  {
    if |rows| > 0 {
      SelectMultiplicity(rows[1..], keep, read, v);
      var rest := Select(rows[1..], keep, read);
      if keep(rows[0]) {
        assert multiset([read(rows[0])] + rest) == multiset{read(rows[0])} + multiset(rest);
      }
    }
  }

  /** A stricter WHERE clause selects a sub-list of what the looser one selects. */
  lemma SelectNarrower<A, B>(rows: seq<A>, narrow: A -> bool, wide: A -> bool, read: A -> B)
    requires forall a :: narrow(a) ==> wide(a)
    ensures forall k :: 0 <= k < |Select(rows, narrow, read)| ==> Select(rows, narrow, read)[k] in Select(rows, wide, read)
  {
    var r := Select(rows, narrow, read);
    forall k | 0 <= k < |r|
      ensures r[k] in Select(rows, wide, read)
    {
      var i :| 0 <= i < |rows| && narrow(rows[i]) && r[k] == read(rows[i]);
    }
  }

  /** Filtering a projection equals projecting with the conjoined WHERE clause:
      two formulations of the same query agree. */
  lemma {:induction false} FilterOfSelect<A, B>(rows: seq<A>, keep: A -> bool, read: A -> B,
                                                p: B -> bool, both: A -> bool)
    requires forall a :: both(a) == (keep(a) && p(read(a)))
    ensures Filter(Select(rows, keep, read), p) == Select(rows, both, read)
  {
    if |rows| > 0 {
      FilterOfSelect(rows[1..], keep, read, p, both);
      var rest := Select(rows[1..], keep, read);
      if keep(rows[0]) {
        assert ([read(rows[0])] + rest)[1..] == rest;
      }
    }
  }

  /** ... and holds each value at most as often. */
  lemma {:induction false} SelectNarrowerMultiset<A, B>(rows: seq<A>, narrow: A -> bool, wide: A -> bool, read: A -> B)
    requires forall a :: narrow(a) ==> wide(a)
    ensures multiset(Select(rows, narrow, read)) <= multiset(Select(rows, wide, read))
  {
    if |rows| > 0 {
      SelectNarrowerMultiset(rows[1..], narrow, wide, read);
      var n := Select(rows[1..], narrow, read);
      var w := Select(rows[1..], wide, read);
      var x := read(rows[0]);
      if wide(rows[0]) {
        assert multiset([x] + w) == multiset{x} + multiset(w);
        if narrow(rows[0]) {
          assert multiset([x] + n) == multiset{x} + multiset(n);
        }
      }
    }
  }
}

=== FILE: department_service.dfy ===
/** The department table: identifier generation, insertion, column-wise
    update, deletion and lookup by DepartmentId. */
module DepartmentService {
  import opened Common
  import opened Text
  import Ids

  /** A department as the caller hands it over; the three optional texts may be null. */
  datatype Department = Department(
    departmentId: string,
    name: string,
    description: NullableString,
    budget: real,
    managerId: NullableString,
    managerName: NullableString)

  /** One row of the Department table; null texts have been stored as "". */
  datatype DepartmentRow = DepartmentRow(
    departmentId: string,
    name: string,
    description: string,
    budget: real,
    managerId: string,
    managerName: string)

  type DepartmentTable = seq<DepartmentRow>

  predicate HasDepartment(rows: DepartmentTable, id: string) {
    exists i :: 0 <= i < |rows| && rows[i].departmentId == id
  }

  function DepartmentIds(rows: DepartmentTable): (ids: seq<string>)
    ensures |ids| == |rows|
    ensures forall i :: 0 <= i < |rows| ==> ids[i] == rows[i].departmentId
  {
    seq(|rows|, i requires 0 <= i < |rows| => rows[i].departmentId)
  }

  /** DepartmentService.GenerateNewDepartmentId: DEP + (suffix of the string
      MAX + 1), DEP001 when there is no DEP identifier or its suffix is not a number. */
  function GenerateNewDepartmentId(rows: DepartmentTable): (id: string)
    ensures StartsWith(id, "DEP")
    ensures (forall i :: 0 <= i < |rows| ==> !StartsWith(rows[i].departmentId, "DEP")) ==> id == "DEP001"
  {
    var ids := DepartmentIds(rows);
    Ids.LexicalNextId(ids, "DEP")
  }

  /** The row an insert or update writes: null texts become "". */
  function Stored(d: Department): (row: DepartmentRow)
    ensures row.departmentId == d.departmentId && row.name == d.name && row.budget == d.budget
    ensures row.description == OrEmpty(d.description)
    ensures row.managerId == OrEmpty(d.managerId)
    ensures row.managerName == OrEmpty(d.managerName)
  {
    DepartmentRow(d.departmentId, d.name, OrEmpty(d.description), d.budget,
                  OrEmpty(d.managerId), OrEmpty(d.managerName))
  }

  /** DepartmentService.Add: the caller's DepartmentId is used as given. */
  function Add(rows: DepartmentTable, d: Department): (out: (DepartmentTable, bool))
    ensures out.1
    ensures |out.0| == |rows| + 1 && out.0[..|rows|] == rows
    ensures out.0[|rows|] == Stored(d)
    ensures d.description.None? ==> out.0[|rows|].description == ""
    ensures d.managerId.None? ==> out.0[|rows|].managerId == ""
    ensures d.managerName.None? ==> out.0[|rows|].managerName == ""
  {
    (rows + [Stored(d)], true)
  }

  /** DepartmentService.Update: Name, Description, Budget, ManagerId and
      ManagerName of every row with that DepartmentId; the key itself is never
      written. */
  function Update(rows: DepartmentTable, d: Department): (out: (DepartmentTable, Result<bool>))
    ensures d.departmentId == "" ==> out == (rows, Err(ArgumentNull))
    ensures d.departmentId != "" ==> out.1 == Ok(HasDepartment(rows, d.departmentId))
    ensures |out.0| == |rows|
    ensures forall i :: 0 <= i < |rows| ==> out.0[i].departmentId == rows[i].departmentId
    ensures forall i :: 0 <= i < |rows| && rows[i].departmentId != d.departmentId ==> out.0[i] == rows[i]
    ensures d.departmentId != "" ==> forall i :: 0 <= i < |rows| && rows[i].departmentId == d.departmentId ==>
              out.0[i] == Stored(d)
  {
    if d.departmentId == "" then (rows, Err(ArgumentNull))
    else
      var s := Stored(d);
      var updated := seq(|rows|, i requires 0 <= i < |rows| =>
                           if rows[i].departmentId == d.departmentId
                           then rows[i].(name := s.name, description := s.description, budget := s.budget,
                                         managerId := s.managerId, managerName := s.managerName)
                           else rows[i]);
      (updated, Ok(HasDepartment(rows, d.departmentId)))
  }

  /** DepartmentService.Delete: removes every row with that DepartmentId. */
  function Delete(rows: DepartmentTable, id: string): (out: (DepartmentTable, Result<bool>))
    ensures id == "" ==> out == (rows, Err(ArgumentNull))
    ensures id != "" ==> out.1 == Ok(HasDepartment(rows, id))
    ensures id != "" ==> !HasDepartment(out.0, id)
    ensures id != "" ==> forall i :: 0 <= i < |rows| && rows[i].departmentId != id ==> rows[i] in out.0
    ensures forall i :: 0 <= i < |out.0| ==> out.0[i] in rows
    ensures id != "" ==>
              multiset(out.0) <= multiset(rows) && |out.0| == Count(rows, (r: DepartmentRow) => r.departmentId != id)
    ensures |out.0| == |rows| <==> !HasDepartment(rows, id) || id == ""
  {
    if id == "" then (rows, Err(ArgumentNull))
    else
      FilterCount(rows, (r: DepartmentRow) => r.departmentId != id);
      (Filter(rows, (r: DepartmentRow) => r.departmentId != id), Ok(HasDepartment(rows, id)))
  }

  /** DepartmentService.GetById: the first row with that DepartmentId, null when none. */
  function GetById(rows: DepartmentTable, id: string): (r: Result<Option<DepartmentRow>>)
    ensures id == "" <==> r == Err(ArgumentNull)
    ensures id != "" ==> r.Ok?
    ensures r.Ok? ==> (r.value.None? <==> !HasDepartment(rows, id))
    ensures r.Ok? && r.value.Some? ==> r.value.value in rows && r.value.value.departmentId == id
  {
    if id == "" then Err(ArgumentNull)
    else if |rows| == 0 then Ok(None)
    else if rows[0].departmentId == id then Ok(Some(rows[0]))
    else
      var rest := GetById(rows[1..], id);
      assert forall i :: 1 <= i < |rows| ==> rows[i] == rows[1..][i - 1];
      rest
  }

  /** Reading a department back after adding it returns what was stored, unless
      an earlier row already carries the same DepartmentId. */
  lemma AddThenGetById(rows: DepartmentTable, d: Department)
    requires d.departmentId != "" && !HasDepartment(rows, d.departmentId)
    ensures GetById(Add(rows, d).0, d.departmentId) == Ok(Some(Stored(d)))
  {
    var after := Add(rows, d).0;
    assert after[|rows|].departmentId == d.departmentId;
    var r := GetById(after, d.departmentId);
    assert r.value.Some?;
    assert r.value.value in after;
  }

  /** After a delete, that DepartmentId is no longer found. */
  lemma DeleteThenGetById(rows: DepartmentTable, id: string)
    requires id != ""
    ensures GetById(Delete(rows, id).0, id) == Ok(None)
  {
  }

  /** Update changes no key, so it keeps the set of departments a lookup can find. */
  lemma UpdateKeepsKeys(rows: DepartmentTable, d: Department, id: string)
    ensures HasDepartment(Update(rows, d).0, id) <==> HasDepartment(rows, id)
  {
    var after := Update(rows, d).0;
    if HasDepartment(rows, id) {
      var k :| 0 <= k < |rows| && rows[k].departmentId == id;
      assert after[k].departmentId == id;
    }
  }
}

=== FILE: employee_service.dfy ===
/** The employee entity and its table: insertion with date validation,
    column-wise update, deletion, the two lookups and the ordered listing. */
module EmployeeService {
  import opened Common
  import opened Calendar
  import opened Text

  datatype EmployeeStatus = Active | Inactive | OnLeave | Terminated

  /** The runtime class of an in-memory employee. `PlainEmployee` is the base
      class itself, which is what the table readers construct. */
  datatype EmployeeVariant =
    | PlainEmployee
    | RegularEmployee
    | FullTimeEmployee(annualBonus: real)
    | ContractEmployee(hourlyRate: real, hoursWorked: real)

  /** An in-memory employee. `id` is the surrogate key (a GUID string, "" for
      null or empty); `employeeId` is the display code. `employeeType` is the
      discriminator string stored in the table, independent of `variant`. */
  datatype Employee = Employee(
    id: string,
    employeeId: string,
    name: string,
    email: string,
    phone: string,
    dateOfBirth: DateTime,
    address: string,
    hireDate: DateTime,
    position: string,
    baseSalary: real,
    departmentId: NullableString,
    status: EmployeeStatus,
    employeeType: NullableString,
    variant: EmployeeVariant)

  /** One row of the Employee table. It has no HourlyRate or HoursWorked column. */
  datatype EmployeeRow = EmployeeRow(
    id: string,
    employeeId: string,
    name: string,
    email: string,
    phone: string,
    dateOfBirth: DateTime,
    address: string,
    hireDate: DateTime,
    position: string,
    baseSalary: real,
    departmentId: NullableString,
    status: EmployeeStatus,
    employeeType: NullableString,
    annualBonus: real)

  type EmployeeTable = seq<EmployeeRow>

  /** Values a property keeps when a reader does not set it: default(DateTime)
      is DateTime.MinValue, default(decimal) is 0, and the first enum member. */
  const DefaultDate: DateTime := MinValue
  const DefaultStatus: EmployeeStatus := Active

  // ---------------------------------------------------------------------
  // Add

  /** The date-of-birth bound: not before 1753-01-01 00:00 and not after
      today's midnight, so a time later today is already too late. */
  predicate BirthDateAccepted(dob: DateTime, today: Date) {
    SqlStorable(dob) && !DateTimeLt(AtMidnight(today), dob)
  }

  /** The row Add inserts for an entity whose Id has been settled. */
  function InsertedRow(e: Employee, id: string): (row: EmployeeRow)
    ensures row.id == id && row.annualBonus == 0.0
    ensures row.employeeId == e.employeeId && row.name == e.name && row.email == e.email
    ensures row.phone == e.phone && row.dateOfBirth == e.dateOfBirth && row.address == e.address
    ensures row.hireDate == e.hireDate && row.position == e.position && row.baseSalary == e.baseSalary
    ensures row.departmentId == e.departmentId && row.status == e.status && row.employeeType == e.employeeType
  {
    EmployeeRow(id, e.employeeId, e.name, e.email, e.phone, e.dateOfBirth, e.address,
                e.hireDate, e.position, e.baseSalary, e.departmentId, e.status,
                e.employeeType, 0.0)
  }

  /** EmployeeService.Add, with `today` the date DateTime.Today reads. The
      date of birth must lie in [1753-01-01, today] and the hire date in
      [1753-01-01, today + 1 year], comparing full timestamps against those
      midnights; both are checked before anything is written, so the insert
      never meets an out-of-range datetime. An empty Id is replaced by
      `freshGuid`. The insert always reports one affected row. */
  function Add(rows: EmployeeTable, e: Employee, today: Date, freshGuid: string): (out: (EmployeeTable, Result<bool>))
    requires ValidDate(today) && freshGuid != ""
    ensures !BirthDateAccepted(e.dateOfBirth, today) ==> out == (rows, Err(ValidationError))
    ensures BirthDateAccepted(e.dateOfBirth, today) && !SqlStorable(e.hireDate) ==> out == (rows, Err(ValidationError))
    ensures out.1.Err? ==> out.0 == rows
    ensures out.1.Ok? <==>
              && BirthDateAccepted(e.dateOfBirth, today)
              && SqlStorable(e.hireDate)
              && AddYears(today, 1).Ok?
              && !DateTimeLt(AtMidnight(AddYears(today, 1).value), e.hireDate)
    ensures out.1.Ok? ==>
              && out.1.value
              && out.0 == rows + [InsertedRow(e, if e.id == "" then freshGuid else e.id)]
              && out.0[|rows|].id != ""
              && (e.id != "" ==> out.0[|rows|].id == e.id)
  {
    if !BirthDateAccepted(e.dateOfBirth, today) then (rows, Err(ValidationError))
    else if !SqlStorable(e.hireDate) then (rows, Err(ValidationError))
    else match AddYears(today, 1)
      case Err(err) => (rows, Err(err))
      case Ok(limit) =>
        if DateTimeLt(AtMidnight(limit), e.hireDate) then (rows, Err(ValidationError))
        else
          var id := if e.id == "" then freshGuid else e.id;
          (rows + [InsertedRow(e, id)], Ok(true))
  }

  // ---------------------------------------------------------------------
  // Update

  /** The columns UPDATE Employee SET ... writes, applied to one row. */
  function Overwritten(row: EmployeeRow, e: Employee): EmployeeRow {
    row.(employeeId := e.employeeId, name := e.name, email := e.email, phone := e.phone,
         dateOfBirth := e.dateOfBirth, address := e.address, hireDate := e.hireDate,
         position := e.position, baseSalary := e.baseSalary, departmentId := e.departmentId,
         status := e.status, employeeType := e.employeeType)
  }

  predicate HasId(rows: EmployeeTable, id: string) {
    exists i :: 0 <= i < |rows| && rows[i].id == id
  }

  /** Update binds both dates without a range check of its own. */
  predicate DatesStorable(e: Employee) {
    SqlStorable(e.dateOfBirth) && SqlStorable(e.hireDate)
  }

  /** EmployeeService.Update: every row whose Id matches gets the twelve listed
      columns from the entity; Id and AnnualBonus stay as they were. A date
      before 1753 makes the command fail before anything is written. */
  function Update(rows: EmployeeTable, e: Employee): (out: (EmployeeTable, Result<bool>))
    ensures e.id == "" <==> out.1 == Err(ArgumentNull)
    ensures e.id != "" && !DatesStorable(e) ==> out.1 == Err(SqlFailure)
    ensures out.1.Err? ==> out.0 == rows
    ensures out.1.Ok? <==> e.id != "" && DatesStorable(e)
    ensures out.1.Ok? ==> out.1 == Ok(HasId(rows, e.id))
    ensures |out.0| == |rows|
    ensures forall i :: 0 <= i < |rows| && rows[i].id != e.id ==> out.0[i] == rows[i]
    ensures out.1.Ok? ==> forall i :: 0 <= i < |rows| && rows[i].id == e.id ==>
              && out.0[i].id == rows[i].id
              && out.0[i].annualBonus == rows[i].annualBonus
              && out.0[i].employeeId == e.employeeId && out.0[i].name == e.name
              && out.0[i].email == e.email && out.0[i].phone == e.phone
              && out.0[i].dateOfBirth == e.dateOfBirth && out.0[i].address == e.address
              && out.0[i].hireDate == e.hireDate && out.0[i].position == e.position
              && out.0[i].baseSalary == e.baseSalary && out.0[i].departmentId == e.departmentId
              && out.0[i].status == e.status && out.0[i].employeeType == e.employeeType
  {
    if e.id == "" then (rows, Err(ArgumentNull))
    else if !DatesStorable(e) then (rows, Err(SqlFailure))
    else
      var updated := seq(|rows|, i requires 0 <= i < |rows| =>
                           if rows[i].id == e.id then Overwritten(rows[i], e) else rows[i]);
      (updated, Ok(HasId(rows, e.id)))
  }

  /** Update never looks at the runtime class: a ContractEmployee's accrued
      HoursWorked (or a FullTimeEmployee's bonus) is not written anywhere. */
  lemma UpdateIgnoresVariant(rows: EmployeeTable, e: Employee, v: EmployeeVariant)
    ensures Update(rows, e.(variant := v)) == Update(rows, e)
  {
    var e' := e.(variant := v);
    if e.id != "" && DatesStorable(e) {
      var a := Update(rows, e').0;
      var b := Update(rows, e).0;
      assert |a| == |b|;
      forall i | 0 <= i < |a|
        ensures a[i] == b[i]
      {
        assert Overwritten(rows[i], e') == Overwritten(rows[i], e);
      }
      assert a == b;
    }
  }

  // ---------------------------------------------------------------------
  // Delete

  /** EmployeeService.Delete: removes every row with that Id. */
  function Delete(rows: EmployeeTable, id: string): (out: (EmployeeTable, Result<bool>))
    ensures id == "" ==> out == (rows, Err(ArgumentNull))
    ensures id != "" ==> out.1 == Ok(HasId(rows, id))
    ensures id != "" ==> !HasId(out.0, id)
    ensures id != "" ==> forall i :: 0 <= i < |rows| && rows[i].id != id ==> rows[i] in out.0
    ensures forall i :: 0 <= i < |out.0| ==> out.0[i] in rows
    ensures id != "" ==> multiset(out.0) <= multiset(rows) && |out.0| == Count(rows, (r: EmployeeRow) => r.id != id)
    ensures |out.0| == |rows| <==> !HasId(rows, id) || id == ""
  {
    if id == "" then (rows, Err(ArgumentNull))
    else
      var kept := Filter(rows, (r: EmployeeRow) => r.id != id);
      FilterCount(rows, (r: EmployeeRow) => r.id != id);
      (kept, Ok(HasId(rows, id)))
  }

  // ---------------------------------------------------------------------
  // Lookups

  /** What GetById and GetByEmployeeId read back: a base-class Employee with the
      ten selected columns (NULL strings read as ""); date of birth, hire date,
      salary and status keep their defaults. */
  function Projected(row: EmployeeRow): (e: Employee)
    ensures e.variant == PlainEmployee
  {
    Employee(row.id, row.employeeId, row.name, row.email, row.phone, DefaultDate,
             row.address, DefaultDate, row.position, 0.0,
             Some(OrEmpty(row.departmentId)), DefaultStatus,
             Some(OrEmpty(row.employeeType)), PlainEmployee)
  }

  /** The first row satisfying `p`, as a reader positioned on its first result. */
  function FirstMatch(rows: EmployeeTable, p: EmployeeRow -> bool): (r: Option<EmployeeRow>)
    ensures r.None? <==> forall i :: 0 <= i < |rows| ==> !p(rows[i])
    ensures r.Some? ==> r.value in rows && p(r.value)
  {
    if |rows| == 0 then None
    else if p(rows[0]) then Some(rows[0])
    else
      var rest := FirstMatch(rows[1..], p);
      assert forall i :: 1 <= i < |rows| ==> rows[i] == rows[1..][i - 1];
      rest
  }

  /** EmployeeService.GetByEmployeeId. */
  function GetByEmployeeId(rows: EmployeeTable, employeeId: string): (r: Result<Option<Employee>>)
    ensures employeeId == "" <==> r == Err(ArgumentNull)
    ensures employeeId != "" ==> r.Ok?
    ensures r.Ok? ==> (r.value.None? <==> forall i :: 0 <= i < |rows| ==> rows[i].employeeId != employeeId)
    ensures r.Ok? && r.value.Some? ==>
              && r.value.value.variant == PlainEmployee
              && r.value.value.employeeId == employeeId
              && (exists i :: 0 <= i < |rows| && rows[i].employeeId == employeeId && r.value.value == Projected(rows[i]))
  {
    if employeeId == "" then Err(ArgumentNull)
    else match FirstMatch(rows, (row: EmployeeRow) => row.employeeId == employeeId)
      case None => Ok(None)
      case Some(row) => Ok(Some(Projected(row)))
  }

  /** EmployeeService.GetById: the same projection, keyed on the surrogate Id. */
  function GetById(rows: EmployeeTable, id: string): (r: Result<Option<Employee>>)
    ensures id == "" <==> r == Err(ArgumentNull)
    ensures id != "" ==> r.Ok?
    ensures r.Ok? ==> (r.value.None? <==> !HasId(rows, id))
    ensures r.Ok? && r.value.Some? ==>
              && r.value.value.variant == PlainEmployee
              && r.value.value.id == id
              && (exists i :: 0 <= i < |rows| && rows[i].id == id && r.value.value == Projected(rows[i]))
  {
    if id == "" then Err(ArgumentNull)
    else match FirstMatch(rows, (row: EmployeeRow) => row.id == id)
      case None => Ok(None)
      case Some(row) => Ok(Some(Projected(row)))
  }

  /** An added employee reads back by its settled Id, through the projection
      the lookups apply, unless an earlier row already carries that Id. */
  lemma AddThenGetById(rows: EmployeeTable, e: Employee, today: Date, freshGuid: string)
    requires ValidDate(today) && freshGuid != ""
    requires Add(rows, e, today, freshGuid).1.Ok?
    requires !HasId(rows, if e.id == "" then freshGuid else e.id)
    ensures var id := if e.id == "" then freshGuid else e.id;
            GetById(Add(rows, e, today, freshGuid).0, id) == Ok(Some(Projected(InsertedRow(e, id))))
  {
    var id := if e.id == "" then freshGuid else e.id;
    var after := Add(rows, e, today, freshGuid).0;
    assert after[|rows|] == InsertedRow(e, id);
    var r := GetById(after, id);
    var i :| 0 <= i < |after| && after[i].id == id && r.value.value == Projected(after[i]);
    assert i == |rows|;
  }

  /** An added employee is found by its EmployeeId when no earlier row
      carries the same EmployeeId. */
  lemma AddThenGetByEmployeeId(rows: EmployeeTable, e: Employee, today: Date, freshGuid: string)
    requires ValidDate(today) && freshGuid != "" && e.employeeId != ""
    requires Add(rows, e, today, freshGuid).1.Ok?
    requires forall i :: 0 <= i < |rows| ==> rows[i].employeeId != e.employeeId
    ensures var id := if e.id == "" then freshGuid else e.id;
            GetByEmployeeId(Add(rows, e, today, freshGuid).0, e.employeeId) == Ok(Some(Projected(InsertedRow(e, id))))
  {
    var id := if e.id == "" then freshGuid else e.id;
    var after := Add(rows, e, today, freshGuid).0;
    assert after[|rows|] == InsertedRow(e, id);
    var r := GetByEmployeeId(after, e.employeeId);
    var i :| 0 <= i < |after| && after[i].employeeId == e.employeeId && r.value.value == Projected(after[i]);
    assert i == |rows|;
  }

  /** What a lookup returns cannot be written back: its dates are the
      0001-01-01 defaults, so Update fails and the table stays as it was. */
  lemma UpdateOfLookedUpFails(rows: EmployeeTable, id: string)
    requires GetById(rows, id).Ok? && GetById(rows, id).value.Some?
    ensures Update(rows, GetById(rows, id).value.value) == (rows, Err(SqlFailure))
  {
    var e := GetById(rows, id).value.value;
    var i :| 0 <= i < |rows| && rows[i].id == id && e == Projected(rows[i]);
    assert e.dateOfBirth == MinValue && !SqlStorable(e.dateOfBirth);
  }

  /** After Delete, a lookup by the same Id finds nothing. */
  lemma DeleteThenGetById(rows: EmployeeTable, id: string)
    requires id != ""
    ensures GetById(Delete(rows, id).0, id) == Ok(None)
  {
  }

  // ---------------------------------------------------------------------
  // Ordered listing

  /** What GetAll reads back: every column but AnnualBonus, as a base-class Employee. */
  function Listed(row: EmployeeRow): (e: Employee)
    ensures e.variant == PlainEmployee && e.employeeId == row.employeeId && e.id == row.id
  {
    Employee(row.id, row.employeeId, row.name, row.email, row.phone, row.dateOfBirth,
             row.address, row.hireDate, row.position, row.baseSalary,
             Some(OrEmpty(row.departmentId)), row.status,
             Some(OrEmpty(row.employeeType)), PlainEmployee)
  }

  predicate SortedByEmployeeId(s: seq<Employee>) {
    forall i, j :: 0 <= i < j < |s| ==> StrLe(s[i].employeeId, s[j].employeeId)
  }

  /** Putting an employee in front of a sorted list whose first EmployeeId is
      not smaller keeps it sorted. */
  lemma PrependSorted(x: Employee, s: seq<Employee>)
    requires SortedByEmployeeId(s)
    requires |s| > 0 ==> StrLe(x.employeeId, s[0].employeeId)
    ensures SortedByEmployeeId([x] + s)
  {
    forall j | 0 <= j < |s|
      ensures StrLe(x.employeeId, s[j].employeeId)
    {
      if j > 0 {
        StrLeTransitive(x.employeeId, s[0].employeeId, s[j].employeeId);
      }
    }
    assert forall j :: 1 <= j < |[x] + s| ==> ([x] + s)[j] == s[j - 1];
  }

  /** A head not above anything in the tail, in front of a sorted tail. */
  lemma HeadBelowTail(h: Employee, tail: seq<Employee>)
    requires SortedByEmployeeId(tail)
    requires forall k :: 0 <= k < |tail| ==> StrLe(h.employeeId, tail[k].employeeId)
    ensures SortedByEmployeeId([h] + tail)
  {
    assert forall j :: 1 <= j < |[h] + tail| ==> ([h] + tail)[j] == tail[j - 1];
  }

  /** What is inserted into the rest of a sorted list stays above its head. */
  lemma TailAboveHead(s: seq<Employee>, x: Employee, tail: seq<Employee>)
    requires |s| > 0 && SortedByEmployeeId(s) && StrLe(s[0].employeeId, x.employeeId)
    requires forall k :: 0 <= k < |tail| ==> tail[k] == x || tail[k] in s[1..]
    ensures forall k :: 0 <= k < |tail| ==> StrLe(s[0].employeeId, tail[k].employeeId)
  {
    forall k | 0 <= k < |tail|
      ensures StrLe(s[0].employeeId, tail[k].employeeId)
    {
      if tail[k] != x {
        var m :| 0 <= m < |s[1..]| && s[1..][m] == tail[k];
        assert s[m + 1] == tail[k];
      }
    }
  }

  function InsertSorted(x: Employee, s: seq<Employee>): (r: seq<Employee>)
    requires SortedByEmployeeId(s)
    ensures |r| == |s| + 1
    ensures forall k :: 0 <= k < |r| ==> r[k] == x || r[k] in s
    ensures multiset(r) == multiset(s) + multiset{x}
    ensures SortedByEmployeeId(r)
  {
    if |s| == 0 then [x]
    else if StrLe(x.employeeId, s[0].employeeId) then
      PrependSorted(x, s);
      [x] + s
    else
      StrLeTotal(x.employeeId, s[0].employeeId);
      assert s == [s[0]] + s[1..];
      var tail := InsertSorted(x, s[1..]);
      TailAboveHead(s, x, tail);
      HeadBelowTail(s[0], tail);
      [s[0]] + tail
  }

  function SortByEmployeeId(s: seq<Employee>): (r: seq<Employee>)
    ensures SortedByEmployeeId(r)
    ensures multiset(r) == multiset(s)
    ensures |r| == |s|
    ensures forall k :: 0 <= k < |r| ==> r[k] in s
  {
    if |s| == 0 then []
    else
      assert s == [s[0]] + s[1..];
      InsertSorted(s[0], SortByEmployeeId(s[1..]))
  }

  /** The table's rows as GetAll reads them, in table order. */
  function ListedRows(rows: EmployeeTable): (s: seq<Employee>)
    ensures |s| == |rows|
    ensures forall i :: 0 <= i < |rows| ==> s[i] == Listed(rows[i])
    ensures forall e :: e in s ==> e.variant == PlainEmployee
  {
    seq(|rows|, i requires 0 <= i < |rows| => Listed(rows[i]))
  }

  /** EmployeeService.GetAll: ... FROM Employee ORDER BY EmployeeId. The result
      holds exactly the table's rows, each as a base-class Employee, in
      ascending EmployeeId order. */
  function GetAll(rows: EmployeeTable): (r: seq<Employee>)
    ensures SortedByEmployeeId(r)
    ensures multiset(r) == multiset(ListedRows(rows))
    ensures forall k :: 0 <= k < |r| ==> r[k].variant == PlainEmployee
  {
    SortByEmployeeId(ListedRows(rows))
  }
}

=== FILE: ids.dfy ===
/** The display-identifier generators: ATTnnn for attendance (numeric MAX of
    the suffixes, computed in SQL), LVEnnn for leave requests and DEPnnn for
    departments (string MAX of the whole identifier, suffix parsed in C#).
    All three append (maximum + 1) in "D3" format to their prefix. */
module Ids {
  import opened Common
  import opened Text

  /** `n + 1` on a C# int in an unchecked context: int.MaxValue wraps to int.MinValue. */
  function Int32Inc(n: int): (r: int)
    requires IsInt32(n)
    ensures IsInt32(r)
    ensures n < Int32Max ==> r == n + 1 && r > n
    ensures n == Int32Max ==> r < n
  {
    if n == Int32Max then Int32Min else n + 1
  }

  /** prefix + (maxSuffix + 1).ToString("D3"), shared by every generator. */
  function NextId(prefix: string, maxSuffix: int): (id: string)
    requires IsInt32(maxSuffix)
    ensures StartsWith(id, prefix)
    ensures |id| >= |prefix| + 3
    ensures ParseInt32(id[|prefix|..]) == Some(Int32Inc(maxSuffix))
    ensures SqlCastInt(id[|prefix|..]) == Ok(Int32Inc(maxSuffix))
  {
    var id := prefix + FormatD3(Int32Inc(maxSuffix));
    assert id[|prefix|..] == FormatD3(Int32Inc(maxSuffix));
    ParseFormatD3(Int32Inc(maxSuffix));
    id
  }

  /** An empty table, or one whose maximum is 0, starts the sequence at 001. */
  lemma NextIdAfterZero(prefix: string)
    ensures NextId(prefix, 0) == prefix + "001"
  {
    assert NatToDigits(1) == "1";
  }

  lemma NextIdExample42()
    ensures NextId("ATT", 41) == "ATT042"
  {
    assert NatToDigits(4) == "4";
    assert NatToDigits(42) == "42";
    assert Zeros(1) == "0";
    assert FormatD3(42) == "042";
  }

  lemma NextIdExample1000(prefix: string)
    ensures NextId(prefix, 999) == prefix + "1000"
  {
    assert NatToDigits(1) == "1";
    assert NatToDigits(10) == "10";
    assert NatToDigits(100) == "100";
    assert NatToDigits(1000) == "1000";
    assert FormatD3(1000) == "1000";
  }

  lemma NextIdExampleNegative()
    ensures NextId("DEP", -5) == "DEP-004"
  {
    assert Int32Inc(-5) == -4;
    assert NatToDigits(4) == "4";
    assert Zeros(2) == "00";
    assert PadZeros("4", 3) == "004";
    FormatD3Negative(-4);
  }

  // ---------------------------------------------------------------------
  // ATT: SELECT MAX(CAST(SUBSTRING(id, 4, LEN(id) - 3) AS INT)) WHERE id LIKE 'ATT%'

  /** The suffix after the prefix, as the numeric scan casts it. */
  function SuffixValue(id: string, prefix: string): Result<int>
    requires StartsWith(id, prefix)
  {
    SqlCastInt(id[|prefix|..])
  }

  /** The SQL MAX over the cast suffixes of the identifiers that carry
      `prefix`: NULL (None) when there are none, an SQL error when one of
      the suffixes does not cast to an int. */
  function MaxSuffix(ids: seq<string>, prefix: string): (r: Result<Option<int>>)
    ensures r.Ok? <==> forall i :: 0 <= i < |ids| && StartsWith(ids[i], prefix) ==> SuffixValue(ids[i], prefix).Ok?
    ensures r.Ok? && r.value.None? <==> forall i :: 0 <= i < |ids| ==> !StartsWith(ids[i], prefix)
    ensures r.Ok? && r.value.Some? ==>
              && IsInt32(r.value.value)
              && (forall i :: 0 <= i < |ids| && StartsWith(ids[i], prefix) ==> SuffixValue(ids[i], prefix).value <= r.value.value)
              && (exists i :: 0 <= i < |ids| && StartsWith(ids[i], prefix) && SuffixValue(ids[i], prefix).value == r.value.value)
  {
    if |ids| == 0 then Ok(None)
    else
      var rest := MaxSuffix(ids[1..], prefix);
      assert forall i :: 1 <= i < |ids| ==> ids[i] == ids[1..][i - 1];
      if !StartsWith(ids[0], prefix) then rest
      else
        match SuffixValue(ids[0], prefix)
        case Err(e) => Err(e)
        case Ok(v) =>
          match rest
          case Err(e) => Err(e)
          case Ok(None) => Ok(Some(v))
          case Ok(Some(m)) =>
            assert exists i :: 1 <= i < |ids| && StartsWith(ids[i], prefix) && SuffixValue(ids[i], prefix).value == m by {
              var j :| 0 <= j < |ids[1..]| && StartsWith(ids[1..][j], prefix) && SuffixValue(ids[1..][j], prefix).value == m;
              assert ids[j + 1] == ids[1..][j];
            }
            Ok(Some(if v < m then m else v))
  }

  /** GenerateNewAttendanceId: maxId starts at 0 and is replaced by the MAX when
      the scan returns one. */
  function NumericNextId(ids: seq<string>, prefix: string): (r: Result<string>)
    ensures r.Ok? <==> MaxSuffix(ids, prefix).Ok?
    ensures r.Ok? ==> StartsWith(r.value, prefix)
    ensures MaxSuffix(ids, prefix) == Ok(None) ==> r == Ok(NextId(prefix, 0))
    ensures forall m :: MaxSuffix(ids, prefix) == Ok(Some(m)) ==> r == Ok(NextId(prefix, m))
  {
    match MaxSuffix(ids, prefix)
    case Err(e) => Err(e)
    case Ok(None) => Ok(NextId(prefix, 0))
    case Ok(Some(m)) => Ok(NextId(prefix, m))
  }

  /** Below the int range's top the numeric scheme yields an identifier whose
      suffix exceeds every existing suffix, hence one not already in use. */
  lemma NumericNextIdFresh(ids: seq<string>, prefix: string)
    requires MaxSuffix(ids, prefix).Ok?
    requires MaxSuffix(ids, prefix).value.Some? ==> MaxSuffix(ids, prefix).value.value < Int32Max
    ensures NumericNextId(ids, prefix).Ok?
    ensures forall i :: 0 <= i < |ids| && StartsWith(ids[i], prefix) ==>
              SuffixValue(ids[i], prefix).value < SuffixValue(NumericNextId(ids, prefix).value, prefix).value
    ensures NumericNextId(ids, prefix).value !in ids
  {
    var m := match MaxSuffix(ids, prefix).value case None => 0 case Some(v) => v;
    var id := NumericNextId(ids, prefix).value;
    assert id == NextId(prefix, m);
    assert SuffixValue(id, prefix) == Ok(m + 1);
    if MaxSuffix(ids, prefix).value.None? {
      assert forall i :: 0 <= i < |ids| ==> !StartsWith(ids[i], prefix);
    }
  }

  // ---------------------------------------------------------------------
  // LVE, DEP: SELECT MAX(id) WHERE id LIKE 'LVE%', then int.TryParse(max.Substring(3))

  function Prefixed(ids: seq<string>, prefix: string): (r: seq<string>)
    ensures forall i :: 0 <= i < |r| ==> r[i] in ids && StartsWith(r[i], prefix)
    ensures forall i :: 0 <= i < |ids| && StartsWith(ids[i], prefix) ==> ids[i] in r
    ensures |r| == 0 <==> forall i :: 0 <= i < |ids| ==> !StartsWith(ids[i], prefix)
  {
    var r := Filter(ids, x => StartsWith(x, prefix));
    assert |r| > 0 ==> r[0] in ids && StartsWith(r[0], prefix);
    r
  }

  /** GenerateLeaveRequestId / GenerateNewDepartmentId: the string MAX of the
      prefixed identifiers decides, not the numeric one. */
  function LexicalNextId(ids: seq<string>, prefix: string): (id: string)
    ensures StartsWith(id, prefix)
    ensures |Prefixed(ids, prefix)| == 0 ==> id == prefix + "001"
    ensures |Prefixed(ids, prefix)| > 0 ==>
              var top := LexMax(Prefixed(ids, prefix));
              && (forall i :: 0 <= i < |ids| && StartsWith(ids[i], prefix) ==> StrLe(ids[i], top))
              && (ParseInt32(top[|prefix|..]).None? ==> id == prefix + "001")
              && (ParseInt32(top[|prefix|..]).Some? ==> id == NextId(prefix, ParseInt32(top[|prefix|..]).value))
  {
    var candidates := Prefixed(ids, prefix);
    if |candidates| == 0 then prefix + "001"
    else
      var top := LexMax(candidates);
      match ParseInt32(top[|prefix|..])
      case Some(n) => NextId(prefix, n)
      case None => prefix + "001"
  }

  lemma Dep999AboveDep1000()
    ensures StrLe("DEP1000", "DEP999") && !StrLe("DEP999", "DEP1000")
  {
    assert "DEP999"[1..] == "EP999" && "DEP1000"[1..] == "EP1000";
    assert "EP999"[1..] == "P999" && "EP1000"[1..] == "P1000";
    assert "P999"[1..] == "999" && "P1000"[1..] == "1000";
  }

  lemma Parse999()
    ensures ParseInt32("999") == Some(999)
  {
    assert "999"[..2] == "99" && "99"[..1] == "9" && "9"[..0] == "";
    assert DigitsValue("999") == 999;
    ParseDigits("999");
  }

  /** The string maximum is not the numeric maximum once suffixes pass 999:
      "DEP999" sorts above "DEP1000", so the generator hands out "DEP1000"
      again although it is already taken. */
  lemma LexicalNextIdCanCollide()
    ensures LexicalNextId(["DEP999", "DEP1000"], "DEP") == "DEP1000"
    ensures "DEP1000" in ["DEP999", "DEP1000"]
  {
    var ids := ["DEP999", "DEP1000"];
    PrefixedDeps();
    MaxOfDeps();
    var top := LexMax(Prefixed(ids, "DEP"));
    assert top == "DEP999";
    assert top[3..] == "999";
    Parse999();
    assert ParseInt32(top[3..]) == Some(999);
    NextIdExample1000("DEP");
    assert LexicalNextId(ids, "DEP") == NextId("DEP", 999);
  }

  lemma PrefixedDeps()
    ensures Prefixed(["DEP999", "DEP1000"], "DEP") == ["DEP999", "DEP1000"]
  {
    var ids := ["DEP999", "DEP1000"];
    assert StartsWith(ids[0], "DEP") && StartsWith(ids[1], "DEP");
    assert ids[1..] == ["DEP1000"];
    assert ids[1..][1..] == [];
  }

  lemma MaxOfDeps()
    ensures LexMax(["DEP999", "DEP1000"]) == "DEP999"
  {
    var ids := ["DEP999", "DEP1000"];
    Dep999AboveDep1000();
  }
}

=== FILE: leave_service.dfy ===
/** The leave workflow: submission with validation and a name snapshot,
    approval and rejection, and the monthly and daily selections. */
module LeaveService {
  import opened Common
  import opened Calendar
  import opened Text
  import Ids
  import EmployeeService

  datatype LeaveStatus = Pending | Approved | Rejected

  /** A leave type is stored as its integer code ((int)leaveType). */
  type LeaveTypeCode = int

  /** One row of the LeaveRequest table. StartDate and EndDate are date
      columns; ApproverId is NULL until a decision. */
  datatype LeaveRow = LeaveRow(
    requestId: string,
    employeeId: string,
    employeeName: string,
    requestDate: DateTime,
    startDate: Date,
    endDate: Date,
    leaveType: LeaveTypeCode,
    status: LeaveStatus,
    remarks: string,
    approverId: Option<string>)

  type LeaveTable = seq<LeaveRow>

  /** A leave request as the service hands it to callers. */
  datatype LeaveRequest = LeaveRequest(
    requestId: string,
    employeeId: string,
    employeeName: string,
    requestDate: DateTime,
    startDate: DateTime,
    endDate: DateTime,
    leaveType: LeaveTypeCode,
    status: LeaveStatus,
    remarks: NullableString,
    approverId: NullableString)

  predicate HasRequest(rows: LeaveTable, requestId: string) {
    exists i :: 0 <= i < |rows| && rows[i].requestId == requestId
  }

  /** Every stored request covers a non-empty range of days. */
  predicate RangesOrdered(rows: LeaveTable) {
    forall i :: 0 <= i < |rows| ==> DateLe(rows[i].startDate, rows[i].endDate)
  }

  function RequestIds(rows: LeaveTable): (ids: seq<string>)
    ensures |ids| == |rows|
    ensures forall i :: 0 <= i < |rows| ==> ids[i] == rows[i].requestId
  {
    seq(|rows|, i requires 0 <= i < |rows| => rows[i].requestId)
  }

  /** LeaveService.GenerateLeaveRequestId: LVE + (suffix of the string MAX + 1),
      LVE001 when there is no LVE identifier or its suffix is not a number. */
  function GenerateLeaveRequestId(rows: LeaveTable): (id: string)
    ensures StartsWith(id, "LVE")
    ensures (forall i :: 0 <= i < |rows| ==> !StartsWith(rows[i].requestId, "LVE")) ==> id == "LVE001"
  {
    Ids.LexicalNextId(RequestIds(rows), "LVE")
  }

  /** MapLeaveRequest. A NULL ApproverId reads back as "" (DBNull.ToString()). */
  function ReadRequest(row: LeaveRow): (r: LeaveRequest)
    ensures r.requestId == row.requestId && r.employeeId == row.employeeId && r.status == row.status
    ensures r.startDate == AtMidnight(row.startDate) && r.endDate == AtMidnight(row.endDate)
    ensures r.remarks == Some(row.remarks)
    ensures r.approverId == Some(OrEmpty(row.approverId))
  {
    LeaveRequest(row.requestId, row.employeeId, row.employeeName, row.requestDate,
                 AtMidnight(row.startDate), AtMidnight(row.endDate), row.leaveType, row.status,
                 Some(row.remarks), Some(OrEmpty(row.approverId)))
  }

  // ---------------------------------------------------------------------
  // Submission

  /** The insert binds RequestDate (the clock), StartDate and EndDate as SQL
      datetime parameters; a value before 1753 makes it fail unwritten. */
  predicate BindsStorable(now: DateTime, startDate: DateTime, endDate: DateTime) {
    SqlStorable(now) && SqlStorable(startDate) && SqlStorable(endDate)
  }

  /** LeaveService.SubmitLeaveRequest, with the clock reading `now`. */
  function SubmitLeaveRequest(leaves: LeaveTable, employees: EmployeeService.EmployeeTable,
                              employeeId: string, startDate: DateTime, endDate: DateTime,
                              leaveType: LeaveTypeCode, remarks: NullableString, now: DateTime)
    : (out: (LeaveTable, Result<LeaveRequest>))
    ensures DateTimeLt(endDate, startDate) ==> out == (leaves, Err(ValidationError))
    ensures !DateTimeLt(endDate, startDate) && employeeId == "" ==> out == (leaves, Err(ArgumentNull))
    ensures (!DateTimeLt(endDate, startDate) && EmployeeService.GetByEmployeeId(employees, employeeId) == Ok(None))
            ==> out == (leaves, Err(NotFound))
    ensures (!DateTimeLt(endDate, startDate) && EmployeeService.GetByEmployeeId(employees, employeeId).Ok?
             && EmployeeService.GetByEmployeeId(employees, employeeId).value.Some?
             && !BindsStorable(now, startDate, endDate))
            ==> out == (leaves, Err(SqlFailure))
    ensures out.1.Err? ==> out.0 == leaves
    ensures out.1.Ok? ==>
              && !DateTimeLt(endDate, startDate)
              && EmployeeService.GetByEmployeeId(employees, employeeId).Ok?
              && EmployeeService.GetByEmployeeId(employees, employeeId).value.Some?
              && BindsStorable(now, startDate, endDate)
    ensures out.1.Ok? ==>
              var employee := EmployeeService.GetByEmployeeId(employees, employeeId).value.value;
              var req := out.1.value;
              && |out.0| == |leaves| + 1 && out.0[..|leaves|] == leaves
              && out.0[|leaves|] == LeaveRow(GenerateLeaveRequestId(leaves), employeeId, employee.name, now,
                                             startDate.date, endDate.date, leaveType, Pending, OrEmpty(remarks), None)
              && req.requestId == GenerateLeaveRequestId(leaves)
              && req.employeeId == employeeId && req.requestDate == now && req.leaveType == leaveType
              && req.employeeName == employee.name
              && req.startDate == startDate && req.endDate == endDate
              && req.status == Pending && req.remarks == remarks && req.approverId == None
  {
    if DateTimeLt(endDate, startDate) then (leaves, Err(ValidationError))
    else match EmployeeService.GetByEmployeeId(employees, employeeId)
      case Err(e) => (leaves, Err(e))
      case Ok(None) => (leaves, Err(NotFound))
      case Ok(Some(employee)) =>
        if !BindsStorable(now, startDate, endDate) then (leaves, Err(SqlFailure))
        else
        var id := GenerateLeaveRequestId(leaves);
        var row := LeaveRow(id, employeeId, employee.name, now, startDate.date, endDate.date,
                            leaveType, Pending, OrEmpty(remarks), None);
        (leaves + [row],
         Ok(LeaveRequest(id, employeeId, employee.name, now, startDate, endDate, leaveType,
                         Pending, remarks, None)))
  }

  /** Submission keeps every stored range ordered: the check on the full
      timestamps implies the order of the dates the columns keep. */
  lemma SubmitKeepsRangesOrdered(leaves: LeaveTable, employees: EmployeeService.EmployeeTable,
                                 employeeId: string, startDate: DateTime, endDate: DateTime,
                                 leaveType: LeaveTypeCode, remarks: NullableString, now: DateTime)
    requires RangesOrdered(leaves)
    ensures RangesOrdered(SubmitLeaveRequest(leaves, employees, employeeId, startDate, endDate, leaveType, remarks, now).0)
  {
    var out := SubmitLeaveRequest(leaves, employees, employeeId, startDate, endDate, leaveType, remarks, now);
    if out.1.Ok? {
      NotBeforeDate(startDate, endDate);
      var rows := out.0;
      forall i | 0 <= i < |rows|
        ensures DateLe(rows[i].startDate, rows[i].endDate)
      {
        if i < |leaves| {
          assert rows[i] == rows[..|leaves|][i];
        }
      }
    }
  }

  // ---------------------------------------------------------------------
  // Decisions

  /** UPDATE LeaveRequest SET Status, ApproverId[, Remarks] WHERE RequestId = id. */
  function Decide(rows: LeaveTable, requestId: string, status: LeaveStatus, approverId: string,
                  remarks: Option<string>): (r: LeaveTable)
    ensures |r| == |rows|
    ensures forall i :: 0 <= i < |rows| && rows[i].requestId != requestId ==> r[i] == rows[i]
    ensures forall i :: 0 <= i < |rows| && rows[i].requestId == requestId ==>
              r[i] == rows[i].(status := status, approverId := Some(approverId),
                               remarks := if remarks.Some? then remarks.value else rows[i].remarks)
  {
    seq(|rows|, i requires 0 <= i < |rows| =>
          if rows[i].requestId != requestId then rows[i]
          else rows[i].(status := status, approverId := Some(approverId),
                        remarks := if remarks.Some? then remarks.value else rows[i].remarks))
  }

  /** LeaveService.ApproveLeaveRequest: whatever the current status, the
      request becomes Approved with that approver; remarks stay. */
  function ApproveLeaveRequest(rows: LeaveTable, requestId: string, approverId: string): (out: (LeaveTable, bool))
    ensures out.1 <==> HasRequest(rows, requestId)
    ensures |out.0| == |rows|
    ensures forall i :: 0 <= i < |rows| && rows[i].requestId != requestId ==> out.0[i] == rows[i]
    ensures forall i :: 0 <= i < |rows| && rows[i].requestId == requestId ==>
              && out.0[i].status == Approved && out.0[i].approverId == Some(approverId)
              && out.0[i] == rows[i].(status := Approved, approverId := Some(approverId))
  {
    (Decide(rows, requestId, Approved, approverId, None), HasRequest(rows, requestId))
  }

  /** LeaveService.RejectLeaveRequest: the request becomes Rejected with that
      approver, and the reason ("" for null) replaces the remarks. */
  function RejectLeaveRequest(rows: LeaveTable, requestId: string, approverId: string,
                              rejectionReason: NullableString): (out: (LeaveTable, bool))
    ensures out.1 <==> HasRequest(rows, requestId)
    ensures |out.0| == |rows|
    ensures forall i :: 0 <= i < |rows| && rows[i].requestId != requestId ==> out.0[i] == rows[i]
    ensures forall i :: 0 <= i < |rows| && rows[i].requestId == requestId ==>
              && out.0[i].status == Rejected && out.0[i].approverId == Some(approverId)
              && out.0[i].remarks == OrEmpty(rejectionReason)
              && out.0[i] == rows[i].(status := Rejected, approverId := Some(approverId), remarks := OrEmpty(rejectionReason))
  {
    (Decide(rows, requestId, Rejected, approverId, Some(OrEmpty(rejectionReason))), HasRequest(rows, requestId))
  }

  /** The decisions are not final: approving a rejected request succeeds and
      leaves it Approved, still carrying the rejection reason. */
  lemma ApproveAfterReject(rows: LeaveTable, requestId: string, rejecter: string, reason: NullableString,
                           approver: string)
    ensures var rejected := RejectLeaveRequest(rows, requestId, rejecter, reason).0;
            var approved := ApproveLeaveRequest(rejected, requestId, approver);
            && approved.1 == HasRequest(rows, requestId)
            && forall i :: 0 <= i < |rows| && rows[i].requestId == requestId ==>
                 approved.0[i] == rows[i].(status := Approved, approverId := Some(approver), remarks := OrEmpty(reason))
  {
    var rejected := RejectLeaveRequest(rows, requestId, rejecter, reason).0;
    assert HasRequest(rejected, requestId) <==> HasRequest(rows, requestId) by {
      if HasRequest(rows, requestId) {
        var k :| 0 <= k < |rows| && rows[k].requestId == requestId;
        assert rejected[k].requestId == requestId;
      }
      if HasRequest(rejected, requestId) {
        var k :| 0 <= k < |rejected| && rejected[k].requestId == requestId;
        assert rows[k].requestId == requestId;
      }
    }
  }

  /** A decision changes no key and adds or removes no row, so it keeps the set
      of stored ranges ordered. */
  lemma DecisionsKeepRangesOrdered(rows: LeaveTable, requestId: string, approverId: string, reason: NullableString)
    requires RangesOrdered(rows)
    ensures RangesOrdered(ApproveLeaveRequest(rows, requestId, approverId).0)
    ensures RangesOrdered(RejectLeaveRequest(rows, requestId, approverId, reason).0)
  {
  }

  // ---------------------------------------------------------------------
  // Selections

  /** LeaveService.GetEmployeeLeaves. */
  function GetEmployeeLeaves(rows: LeaveTable, employeeId: string): (r: seq<LeaveRequest>)
    ensures |r| == Count(rows, (row: LeaveRow) => row.employeeId == employeeId)
    ensures forall k :: 0 <= k < |r| ==> r[k].employeeId == employeeId
    ensures forall k :: 0 <= k < |r| ==>
              exists i :: 0 <= i < |rows| && rows[i].employeeId == employeeId && r[k] == ReadRequest(rows[i])
    ensures forall i :: 0 <= i < |rows| && rows[i].employeeId == employeeId ==> ReadRequest(rows[i]) in r
  {
    Select(rows, (row: LeaveRow) => row.employeeId == employeeId, ReadRequest)
  }

  /** A submitted request is listed among the employee's requests, read back
      as the row it stored. */
  lemma SubmittedListedForEmployee(leaves: LeaveTable, employees: EmployeeService.EmployeeTable,
                                   employeeId: string, startDate: DateTime, endDate: DateTime,
                                   leaveType: LeaveTypeCode, remarks: NullableString, now: DateTime)
    ensures var (after, req) := SubmitLeaveRequest(leaves, employees, employeeId, startDate, endDate, leaveType, remarks, now);
            req.Ok? ==>
              && ReadRequest(after[|leaves|]) in GetEmployeeLeaves(after, employeeId)
              && ReadRequest(after[|leaves|]).requestId == req.value.requestId
  {
    var (after, req) := SubmitLeaveRequest(leaves, employees, employeeId, startDate, endDate, leaveType, remarks, now);
    if req.Ok? {
      assert after[|leaves|].employeeId == employeeId;
    }
  }

  /** The monthly WHERE clause: the start or the end falls in that month, or
      the request starts before the month and ends on or after its first day. */
  predicate InMonthSelection(start: Date, end: Date, year: int, month: int, first: Date) {
    || InMonth(start, year, month)
    || InMonth(end, year, month)
    || (DateLt(start, first) && DateLe(first, end))
  }

  function LastOfMonth(year: int, month: int): Date {
    Date(year, month, DaysInMonth(year, month))
  }

  /** For a well-formed request the monthly selection is exactly "the inclusive
      range overlaps the month". */
  lemma MonthSelectionIsOverlap(start: Date, end: Date, year: int, month: int)
    requires ValidDate(start) && ValidDate(end) && DateLe(start, end)
    requires 1 <= month <= 12
    ensures InMonthSelection(start, end, year, month, Date(year, month, 1))
            <==> DateLe(start, LastOfMonth(year, month)) && DateLe(Date(year, month, 1), end)
  {
  }

  /** A request spanning a month boundary is listed in both months. */
  lemma SpanningRequestInBothMonths()
    ensures InMonthSelection(Date(2024, 1, 28), Date(2024, 2, 3), 2024, 1, Date(2024, 1, 1))
    ensures InMonthSelection(Date(2024, 1, 28), Date(2024, 2, 3), 2024, 2, Date(2024, 2, 1))
    ensures !InMonthSelection(Date(2024, 1, 28), Date(2024, 2, 3), 2024, 3, Date(2024, 3, 1))
  {
  }

  predicate InMonthRow(row: LeaveRow, year: int, month: int) {
    InMonthSelection(row.startDate, row.endDate, year, month, Date(year, month, 1))
  }

  /** LeaveService.GetMonthlyLeaves. new DateTime(year, month, 1) throws
      before the query runs when the year or the month is out of range, and
      the query fails on that @FirstOfMonth parameter for a year before 1753. */
  function GetMonthlyLeaves(rows: LeaveTable, year: int, month: int): (r: Result<seq<LeaveRequest>>)
    ensures FirstOfMonth(year, month).Err? ==> r == Err(ArgumentOutOfRange)
    ensures FirstOfMonth(year, month).Ok? && year < 1753 ==> r == Err(SqlFailure)
    ensures r.Ok? <==> FirstOfMonth(year, month).Ok? && year >= 1753
    ensures r.Ok? ==>
              && |r.value| == Count(rows, (row: LeaveRow) => InMonthRow(row, year, month))
              && (forall k :: 0 <= k < |r.value| ==>
                    exists i :: 0 <= i < |rows| && InMonthRow(rows[i], year, month) && r.value[k] == ReadRequest(rows[i]))
              && (forall i :: 0 <= i < |rows| && InMonthRow(rows[i], year, month) ==> ReadRequest(rows[i]) in r.value)
  {
    var first :- FirstOfMonth(year, month);
    if !SqlStorable(AtMidnight(first)) then Err(SqlFailure)
    else Ok(Select(rows, (row: LeaveRow) => InMonthRow(row, year, month), ReadRequest))
  }

  /** LeaveService.GetEmployeeMonthlyLeaves: the same selection restricted to
      one employee. */
  function GetEmployeeMonthlyLeaves(rows: LeaveTable, employeeId: string, year: int, month: int)
    : (r: Result<seq<LeaveRequest>>)
    ensures FirstOfMonth(year, month).Err? ==> r == Err(ArgumentOutOfRange)
    ensures FirstOfMonth(year, month).Ok? && year < 1753 ==> r == Err(SqlFailure)
    ensures r.Ok? <==> FirstOfMonth(year, month).Ok? && year >= 1753
    ensures r.Ok? ==>
              && |r.value| == Count(rows, (row: LeaveRow) => row.employeeId == employeeId && InMonthRow(row, year, month))
              && multiset(r.value) <= multiset(GetMonthlyLeaves(rows, year, month).value)
              && (forall k :: 0 <= k < |r.value| ==> r.value[k] in GetMonthlyLeaves(rows, year, month).value
                                                     && r.value[k].employeeId == employeeId)
              && (forall i :: 0 <= i < |rows| && rows[i].employeeId == employeeId && InMonthRow(rows[i], year, month)
                    ==> ReadRequest(rows[i]) in r.value)
  {
    var first :- FirstOfMonth(year, month);
    if !SqlStorable(AtMidnight(first)) then Err(SqlFailure)
    else
    SelectNarrower(rows, (row: LeaveRow) => row.employeeId == employeeId && InMonthRow(row, year, month),
                   (row: LeaveRow) => InMonthRow(row, year, month), ReadRequest);
    SelectNarrowerMultiset(rows, (row: LeaveRow) => row.employeeId == employeeId && InMonthRow(row, year, month),
                           (row: LeaveRow) => InMonthRow(row, year, month), ReadRequest);
    Ok(Select(rows, (row: LeaveRow) => row.employeeId == employeeId && InMonthRow(row, year, month), ReadRequest))
  }

  /** @Date BETWEEN StartDate AND EndDate, inclusive at both ends. */
  predicate CoversDay(row: LeaveRow, day: Date) {
    DateLe(row.startDate, day) && DateLe(day, row.endDate)
  }

  /** LeaveService.GetDailyLeaves: the requests whose range contains
      date.Date. The @Date parameter fails for a day before 1753. */
  function GetDailyLeaves(rows: LeaveTable, date: DateTime): (r: Result<seq<LeaveRequest>>)
    ensures r.Err? <==> !SqlStorable(AtMidnight(date.date))
    ensures r.Err? ==> r.error == SqlFailure
    ensures r.Ok? ==>
              && |r.value| == Count(rows, (row: LeaveRow) => CoversDay(row, date.date))
              && (forall k :: 0 <= k < |r.value| ==>
                    exists i :: 0 <= i < |rows| && CoversDay(rows[i], date.date) && r.value[k] == ReadRequest(rows[i]))
              && (forall k :: 0 <= k < |r.value| ==>
                    DateTimeLe(r.value[k].startDate, AtMidnight(date.date)) && DateTimeLe(AtMidnight(date.date), r.value[k].endDate))
              && (forall i :: 0 <= i < |rows| && CoversDay(rows[i], date.date) ==> ReadRequest(rows[i]) in r.value)
  {
    if !SqlStorable(AtMidnight(date.date)) then Err(SqlFailure)
    else Ok(Select(rows, (row: LeaveRow) => CoversDay(row, date.date), ReadRequest))
  }

  /** LeaveService.GetEmployeeDailyLeaves. */
  function GetEmployeeDailyLeaves(rows: LeaveTable, employeeId: string, date: DateTime): (r: Result<seq<LeaveRequest>>)
    ensures r.Err? <==> !SqlStorable(AtMidnight(date.date))
    ensures r.Err? ==> r.error == SqlFailure
    ensures r.Ok? ==>
              && |r.value| == Count(rows, (row: LeaveRow) => row.employeeId == employeeId && CoversDay(row, date.date))
              && multiset(r.value) <= multiset(GetDailyLeaves(rows, date).value)
              && (forall k :: 0 <= k < |r.value| ==> r.value[k] in GetDailyLeaves(rows, date).value
                                                     && r.value[k].employeeId == employeeId)
              && (forall i :: 0 <= i < |rows| && rows[i].employeeId == employeeId && CoversDay(rows[i], date.date)
                    ==> ReadRequest(rows[i]) in r.value)
  {
    if !SqlStorable(AtMidnight(date.date)) then Err(SqlFailure)
    else
    SelectNarrower(rows, (row: LeaveRow) => row.employeeId == employeeId && CoversDay(row, date.date),
                   (row: LeaveRow) => CoversDay(row, date.date), ReadRequest);
    SelectNarrowerMultiset(rows, (row: LeaveRow) => row.employeeId == employeeId && CoversDay(row, date.date),
                           (row: LeaveRow) => CoversDay(row, date.date), ReadRequest);
    Ok(Select(rows, (row: LeaveRow) => row.employeeId == employeeId && CoversDay(row, date.date), ReadRequest))
  }

  /** The daily selection includes both ends of a request's range: a request
      is listed on its first and on its last day, once the query can run. */
  lemma DailySelectionInclusive(row: LeaveRow)
    requires DateLe(row.startDate, row.endDate)
    ensures SqlStorable(AtMidnight(row.startDate)) ==> ReadRequest(row) in GetDailyLeaves([row], AtMidnight(row.startDate)).value
    ensures SqlStorable(AtMidnight(row.endDate)) ==> ReadRequest(row) in GetDailyLeaves([row], AtMidnight(row.endDate)).value
  {
    assert CoversDay([row][0], row.startDate);
    assert CoversDay([row][0], row.endDate);
  }
}

=== FILE: payroll_service.dfy ===
/** The payroll calculator: net salary and the list statistics over payroll
    records, the month selection, the bulk "mark paid" run, and insertion. */
module PayrollService {
  import opened Common
  import opened Calendar

  /** A payroll record; amounts are exact decimals. */
  datatype Payroll = Payroll(
    payrollId: string,
    employeeId: string,
    employeeName: string,
    payPeriodStart: DateTime,
    payPeriodEnd: DateTime,
    baseSalary: real,
    allowances: real,
    deductions: real,
    netSalary: real,
    isPaid: bool)

  type PayrollTable = seq<Payroll>

  // ---------------------------------------------------------------------
  // Calculations

  /** PayrollService.CalculateNetSalary: no floor at zero. */
  function CalculateNetSalary(baseSalary: real, allowances: real, deductions: real): (net: real)
    ensures net + deductions == baseSalary + allowances
    ensures net < 0.0 <==> deductions > baseSalary + allowances
  {
    baseSalary + allowances - deductions
  }

  lemma NetSalaryExamples()
    ensures CalculateNetSalary(5000.0, 200.0, 300.0) == 4900.0
    ensures CalculateNetSalary(100.0, 0.0, 500.0) == -400.0
  {
  }

  /** The sum of NetSalary over a list, added up from the front. */
  function SumNet(payrolls: seq<Payroll>): real {
    if |payrolls| == 0 then 0.0
    else SumNet(payrolls[..|payrolls| - 1]) + payrolls[|payrolls| - 1].netSalary
  }

  lemma {:induction false} SumNetAppend(a: seq<Payroll>, b: seq<Payroll>)
    ensures SumNet(a + b) == SumNet(a) + SumNet(b)
    decreases |b|
  {
    if |b| > 0 {
      assert (a + b)[..|a + b| - 1] == a + b[..|b| - 1];
      SumNetAppend(a, b[..|b| - 1]);
    } else {
      assert a + b == a;
    }
  }

  /** Summing only depends on the amounts: lists with equal NetSalary
      position by position have equal sums. */
  lemma {:induction false} SumNetPointwise(a: seq<Payroll>, b: seq<Payroll>)
    requires |a| == |b|
    requires forall i :: 0 <= i < |a| ==> a[i].netSalary == b[i].netSalary
    ensures SumNet(a) == SumNet(b)
    decreases |a|
  {
    if |a| > 0 {
      SumNetPointwise(a[..|a| - 1], b[..|b| - 1]);
    }
  }

  /** Every amount lies in [lo, hi], so the sum lies in [n * lo, n * hi]. */
  lemma {:induction false} SumNetBounds(payrolls: seq<Payroll>, lo: real, hi: real)
    requires forall i :: 0 <= i < |payrolls| ==> lo <= payrolls[i].netSalary <= hi
    ensures (|payrolls| as real) * lo <= SumNet(payrolls) <= (|payrolls| as real) * hi
    decreases |payrolls|
  {
    if |payrolls| > 0 {
      var init := payrolls[..|payrolls| - 1];
      assert forall i :: 0 <= i < |init| ==> init[i] == payrolls[i];
      SumNetBounds(init, lo, hi);
      var m := |init| as real;
      assert (|payrolls| as real) == m + 1.0;
      assert SumNet(payrolls) == SumNet(init) + payrolls[|payrolls| - 1].netSalary;
      assert (m + 1.0) * lo == m * lo + lo;
      assert (m + 1.0) * hi == m * hi + hi;
    }
  }

  /** PayrollService.CalculateTotalPayroll: 0 for an empty list. */
  method CalculateTotalPayroll(payrolls: seq<Payroll>) returns (total: real)
    ensures total == SumNet(payrolls)
    ensures |payrolls| == 0 ==> total == 0.0
  {
    total := 0.0;
    var i := 0;
    while i < |payrolls|
      invariant 0 <= i <= |payrolls|
      invariant total == SumNet(payrolls[..i])
    {
      assert payrolls[..i + 1][..i] == payrolls[..i];
      total := total + payrolls[i].netSalary;
      i := i + 1;
    }
    assert payrolls[..i] == payrolls;
  }

  /** PayrollService.CalculateAverageSalary: 0 for an empty list. */
  method CalculateAverageSalary(payrolls: seq<Payroll>) returns (average: real)
    ensures |payrolls| == 0 ==> average == 0.0
    ensures |payrolls| > 0 ==> average * (|payrolls| as real) == SumNet(payrolls)
  {
    if |payrolls| == 0 {
      average := 0.0;
    } else {
      var total := CalculateTotalPayroll(payrolls);
      average := total / (|payrolls| as real);
    }
  }

  /** PayrollService.GetSalaryRange: (0, 0) for an empty list, otherwise the
      smallest and the largest NetSalary. */
  method GetSalaryRange(payrolls: seq<Payroll>) returns (minSalary: real, maxSalary: real)
    ensures |payrolls| == 0 ==> minSalary == 0.0 && maxSalary == 0.0
    ensures forall i :: 0 <= i < |payrolls| ==> minSalary <= payrolls[i].netSalary <= maxSalary
    ensures |payrolls| > 0 ==> exists i :: 0 <= i < |payrolls| && payrolls[i].netSalary == minSalary
    ensures |payrolls| > 0 ==> exists i :: 0 <= i < |payrolls| && payrolls[i].netSalary == maxSalary
  {
    if |payrolls| == 0 {
      return 0.0, 0.0;
    }
    minSalary, maxSalary := payrolls[0].netSalary, payrolls[0].netSalary;
    var lowAt, highAt := 0, 0;
    var i := 1;
    while i < |payrolls|
      invariant 1 <= i <= |payrolls|
      invariant 0 <= lowAt < i && payrolls[lowAt].netSalary == minSalary
      invariant 0 <= highAt < i && payrolls[highAt].netSalary == maxSalary
      invariant forall j :: 0 <= j < i ==> minSalary <= payrolls[j].netSalary <= maxSalary
    {
      if payrolls[i].netSalary < minSalary {
        minSalary, lowAt := payrolls[i].netSalary, i;
      }
      if payrolls[i].netSalary > maxSalary {
        maxSalary, highAt := payrolls[i].netSalary, i;
      }
      i := i + 1;
    }
  }

  /** The average of a non-empty list lies within its salary range. */
  lemma AverageWithinRange(payrolls: seq<Payroll>, average: real, minSalary: real, maxSalary: real)
    requires |payrolls| > 0
    requires average * (|payrolls| as real) == SumNet(payrolls)
    requires forall i :: 0 <= i < |payrolls| ==> minSalary <= payrolls[i].netSalary <= maxSalary
    ensures minSalary <= average <= maxSalary
  {
    SumNetBounds(payrolls, minSalary, maxSalary);
    var n := |payrolls| as real;
    assert n * average == average * n;
    ScaleMonotone(n, minSalary, average);
    ScaleMonotone(n, average, maxSalary);
  }

  /** Multiplying by a positive factor preserves the order both ways. */
  lemma ScaleMonotone(n: real, a: real, b: real)
    requires n > 0.0
    ensures a <= b <==> n * a <= n * b
  {
    assert n * b - n * a == n * (b - a);
    if a <= b {
      assert n * (b - a) >= 0.0;
    } else {
      assert n * (a - b) > 0.0;
    }
  }

  // ---------------------------------------------------------------------
  // Month selection and the payroll run

  /** YEAR(PayPeriodStart) = month.Year AND MONTH(PayPeriodStart) = month.Month;
      PayPeriodEnd plays no part. */
  predicate InPayMonth(p: Payroll, month: DateTime) {
    InMonth(p.payPeriodStart.date, month.date.year, month.date.month)
  }

  /** PayrollService.GetPayrollsByMonth. */
  function GetPayrollsByMonth(rows: PayrollTable, month: DateTime): (r: seq<Payroll>)
    ensures |r| == Count(rows, (p: Payroll) => InPayMonth(p, month))
    ensures forall k :: 0 <= k < |r| ==> r[k] in rows && InPayMonth(r[k], month)
    ensures forall i :: 0 <= i < |rows| && InPayMonth(rows[i], month) ==> rows[i] in r
  {
    FilterCount(rows, (p: Payroll) => InPayMonth(p, month));
    Filter(rows, (p: Payroll) => InPayMonth(p, month))
  }

  /** A period that starts on 31 January and ends in February is January's. */
  lemma PeriodEndIgnored(p: Payroll)
    requires p.payPeriodStart.date == Date(2024, 1, 31) && p.payPeriodEnd.date == Date(2024, 2, 29)
    ensures GetPayrollsByMonth([p], DateTime(Date(2024, 1, 1), 0)) == [p]
    ensures GetPayrollsByMonth([p], DateTime(Date(2024, 2, 1), 0)) == []
  {
    assert InPayMonth([p][0], DateTime(Date(2024, 1, 1), 0));
  }

  /** The rows the run marks: unpaid, starting in that month. */
  predicate DueInMonth(p: Payroll, month: DateTime) {
    InPayMonth(p, month) && !p.isPaid
  }

  /** PayrollService.RunPayrollForMonth: UPDATE ... SET IsPaid = 1 on the unpaid
      rows of that month; true iff the update touched a row. */
  function RunPayrollForMonth(rows: PayrollTable, month: DateTime): (out: (PayrollTable, bool))
    ensures |out.0| == |rows|
    ensures forall i :: 0 <= i < |rows| && DueInMonth(rows[i], month) ==> out.0[i] == rows[i].(isPaid := true)
    ensures forall i :: 0 <= i < |rows| && !DueInMonth(rows[i], month) ==> out.0[i] == rows[i]
    ensures out.1 <==> exists i :: 0 <= i < |rows| && DueInMonth(rows[i], month)
    ensures out.1 <==> out.0 != rows
  {
    var updated := seq(|rows|, i requires 0 <= i < |rows| =>
                         if DueInMonth(rows[i], month) then rows[i].(isPaid := true) else rows[i]);
    var changed := Count(rows, (p: Payroll) => DueInMonth(p, month)) > 0;
    assert changed <==> updated != rows by {
      if changed {
        var k :| 0 <= k < |rows| && DueInMonth(rows[k], month);
        assert updated[k] != rows[k];
      } else {
        assert updated == rows;
      }
    }
    (updated, changed)
  }

  /** Running the same month again finds nothing left to pay. */
  lemma RunPayrollIdempotent(rows: PayrollTable, month: DateTime)
    ensures var once := RunPayrollForMonth(rows, month).0;
            RunPayrollForMonth(once, month) == (once, false)
  {
    var once := RunPayrollForMonth(rows, month).0;
    assert forall i :: 0 <= i < |once| ==> !DueInMonth(once[i], month);
  }

  /** Afterwards every payroll of that month is paid. */
  lemma RunPaysWholeMonth(rows: PayrollTable, month: DateTime)
    ensures forall p :: p in GetPayrollsByMonth(RunPayrollForMonth(rows, month).0, month) ==> p.isPaid
  {
    var once := RunPayrollForMonth(rows, month).0;
    forall p | p in GetPayrollsByMonth(once, month)
      ensures p.isPaid
    {
      var k :| 0 <= k < |once| && once[k] == p;
    }
  }

  /** Marking rows paid moves no money: the total over the table is unchanged. */
  lemma RunKeepsTotal(rows: PayrollTable, month: DateTime)
    ensures SumNet(RunPayrollForMonth(rows, month).0) == SumNet(rows)
  {
    SumNetPointwise(RunPayrollForMonth(rows, month).0, rows);
  }

  // ---------------------------------------------------------------------
  // Insertion

  /** The insert binds both period ends as SQL datetime parameters. */
  predicate PeriodStorable(p: Payroll) {
    SqlStorable(p.payPeriodStart) && SqlStorable(p.payPeriodEnd)
  }

  /** PayrollService.Add: the row gets a fresh GUID in place of the caller's
      PayrollId; NetSalary is stored as given, not recomputed. A period end
      before 1753 makes the insert fail with nothing written. */
  function Add(rows: PayrollTable, p: Payroll, freshGuid: string): (out: (PayrollTable, Result<bool>))
    ensures out.1.Ok? <==> PeriodStorable(p)
    ensures !PeriodStorable(p) ==> out == (rows, Err(SqlFailure))
    ensures out.1.Ok? ==>
              && out.1.value
              && |out.0| == |rows| + 1 && out.0[..|rows|] == rows
              && out.0[|rows|].payrollId == freshGuid
              && out.0[|rows|] == p.(payrollId := freshGuid)
  {
    if !PeriodStorable(p) then (rows, Err(SqlFailure))
    else (rows + [p.(payrollId := freshGuid)], Ok(true))
  }

  /** The identifier the caller supplies never reaches the table. */
  lemma AddIgnoresGivenId(rows: PayrollTable, p: Payroll, q: Payroll, freshGuid: string)
    requires q == p.(payrollId := q.payrollId)
    ensures Add(rows, p, freshGuid) == Add(rows, q, freshGuid)
  {
  }

  /** An inconsistent NetSalary is stored as it is. */
  lemma AddKeepsGivenNetSalary(rows: PayrollTable, p: Payroll, freshGuid: string)
    requires p.netSalary != CalculateNetSalary(p.baseSalary, p.allowances, p.deductions)
    ensures Add(rows, p, freshGuid).1.Ok? ==>
            var stored := Add(rows, p, freshGuid).0[|rows|];
            stored.netSalary != CalculateNetSalary(stored.baseSalary, stored.allowances, stored.deductions)
  {
  }

  /** An added payroll is listed under the month its period starts in. */
  lemma AddedListedInItsMonth(rows: PayrollTable, p: Payroll, freshGuid: string)
    ensures Add(rows, p, freshGuid).1.Ok? ==>
              p.(payrollId := freshGuid) in GetPayrollsByMonth(Add(rows, p, freshGuid).0, p.payPeriodStart)
  {
    var after := Add(rows, p, freshGuid).0;
    if Add(rows, p, freshGuid).1.Ok? {
      assert InPayMonth(after[|rows|], p.payPeriodStart);
    }
  }
}

=== FILE: text.dfy ===
/** String helpers the identifier generators rely on: ordinal string order
    (SQL MAX over a string column), the "D3" integer format, and the two
    integer parsers (C# int.TryParse and SQL Server CAST(... AS INT)). */
module Text {
  import opened Common

  const Int32Min: int := -0x8000_0000
  const Int32Max: int := 0x7fff_ffff

  predicate IsInt32(n: int) {
    Int32Min <= n <= Int32Max
  }

  predicate StartsWith(s: string, prefix: string) {
    |prefix| <= |s| && s[..|prefix|] == prefix
  }

  // ---------------------------------------------------------------------
  // Ordinal string order

  /** a <= b in ordinal (code-unit) lexicographic order. */
  predicate StrLe(a: string, b: string)
    decreases |a|
  {
    if |a| == 0 then true
    else if |b| == 0 then false
    else if a[0] != b[0] then a[0] < b[0]
    else StrLe(a[1..], b[1..])
  }

  lemma {:induction false} StrLeTotal(a: string, b: string)
    ensures StrLe(a, b) || StrLe(b, a)
    decreases |a|
  {
    if |a| > 0 && |b| > 0 && a[0] == b[0] {
      StrLeTotal(a[1..], b[1..]);
    }
  }

  lemma {:induction false} StrLeTransitive(a: string, b: string, c: string)
    requires StrLe(a, b) && StrLe(b, c)
    ensures StrLe(a, c)
    decreases |a|
  {
    if |a| > 0 && |b| > 0 && |c| > 0 && a[0] == b[0] && b[0] == c[0] {
      StrLeTransitive(a[1..], b[1..], c[1..]);
    }
  }

  lemma {:induction false} StrLeAntisymmetric(a: string, b: string)
    requires StrLe(a, b) && StrLe(b, a)
    ensures a == b
    decreases |a|
  {
    if |a| > 0 && |b| > 0 {
      StrLeAntisymmetric(a[1..], b[1..]);
      assert a == [a[0]] + a[1..];
      assert b == [b[0]] + b[1..];
    }
  }

  /** MAX over a non-empty list of strings. */
  function LexMax(xs: seq<string>): (m: string)
    requires |xs| > 0
    ensures m in xs
    ensures forall i :: 0 <= i < |xs| ==> StrLe(xs[i], m)
  {
    if |xs| == 1 then
      StrLeReflexive(xs[0]);
      xs[0]
    else
      var rest := LexMax(xs[1..]);
      assert forall i :: 1 <= i < |xs| ==> xs[i] == xs[1..][i - 1];
      StrLeTotal(xs[0], rest);
      if StrLe(rest, xs[0]) then
        StrLeReflexive(xs[0]);
        forall i | 1 <= i < |xs|
          ensures StrLe(xs[i], xs[0])
        {
          StrLeTransitive(xs[i], rest, xs[0]);
        }
        xs[0]
      else
        rest
  }

  lemma {:induction false} StrLeReflexive(a: string)
    ensures StrLe(a, a)
    decreases |a|
  {
    if |a| > 0 {
      StrLeReflexive(a[1..]);
    }
  }

  // ---------------------------------------------------------------------
  // Decimal digits

  predicate IsDigit(c: char) {
    '0' <= c <= '9'
  }

  predicate AllDigits(s: string) {
    forall i :: 0 <= i < |s| ==> IsDigit(s[i])
  }

  function DigitChar(d: nat): (c: char)
    requires d < 10
    ensures IsDigit(c) && (c as int) - ('0' as int) == d
  {
    (('0' as int) + d) as char
  }

  /** The shortest decimal spelling of n, no sign. */
  function NatToDigits(n: nat): (s: string)
    ensures |s| > 0 && AllDigits(s)
    ensures n < 10 ==> |s| == 1
    ensures n >= 10 ==> |s| >= 2
  {
    if n < 10 then [DigitChar(n)]
    else NatToDigits(n / 10) + [DigitChar(n % 10)]
  }

  /** The number a string of decimal digits spells. */
  function DigitsValue(s: string): nat
    requires AllDigits(s)
  {
    if |s| == 0 then 0
    else DigitsValue(s[..|s| - 1]) * 10 + ((s[|s| - 1] as int) - ('0' as int))
  }

  function Zeros(k: nat): (s: string)
    ensures |s| == k && AllDigits(s)
    ensures forall i :: 0 <= i < k ==> s[i] == '0'
  {
    if k == 0 then [] else Zeros(k - 1) + ['0']
  }

  /** String.PadLeft(width, '0'). */
  function PadZeros(s: string, width: nat): (r: string)
    ensures |r| == if |s| < width then width else |s|
    ensures r[|r| - |s|..] == s
    ensures AllDigits(s) ==> AllDigits(r)
  {
    if |s| < width then Zeros(width - |s|) + s else s
  }

  /** n.ToString("D3"): at least three digits, a leading minus for negatives. */
  function FormatD3(n: int): (s: string)
  {
    if n < 0 then "-" + PadZeros(NatToDigits(-n), 3)
    else PadZeros(NatToDigits(n), 3)
  }

  lemma {:induction false} DigitsValueOfNat(n: nat)
    ensures DigitsValue(NatToDigits(n)) == n
  {
    if n >= 10 {
      var s := NatToDigits(n);
      assert s[..|s| - 1] == NatToDigits(n / 10);
      DigitsValueOfNat(n / 10);
    }
  }

  lemma {:induction false} DigitsValueLeadingZeros(k: nat, s: string)
    requires AllDigits(s)
    ensures DigitsValue(Zeros(k) + s) == DigitsValue(s)
    decreases |s|, k
  {
    var t := Zeros(k) + s;
    if |s| == 0 {
      assert t == Zeros(k);
      if k > 0 {
        assert t[..|t| - 1] == Zeros(k - 1) + [];
        DigitsValueLeadingZeros(k - 1, []);
      }
    } else {
      assert t[..|t| - 1] == Zeros(k) + s[..|s| - 1];
      DigitsValueLeadingZeros(k, s[..|s| - 1]);
    }
  }

  /** The padded digits still spell the same number. */
  lemma DigitsValuePadded(n: nat)
    ensures AllDigits(PadZeros(NatToDigits(n), 3))
    ensures DigitsValue(PadZeros(NatToDigits(n), 3)) == n
  {
    var s := NatToDigits(n);
    DigitsValueOfNat(n);
    if |s| < 3 {
      DigitsValueLeadingZeros(3 - |s|, s);
    }
  }

  // ---------------------------------------------------------------------
  // Parsing

  /** The white-space characters NumberStyles.Integer skips: U+0009..U+000D and U+0020. */
  predicate IsWhite(c: char) {
    c == ' ' || ('\t' <= c <= '\r')
  }

  function TrimStart(s: string): string {
    if |s| > 0 && IsWhite(s[0]) then TrimStart(s[1..]) else s
  }

  function TrimEnd(s: string): string {
    if |s| > 0 && IsWhite(s[|s| - 1]) then TrimEnd(s[..|s| - 1]) else s
  }

  function Trim(s: string): string {
    TrimEnd(TrimStart(s))
  }

  /** The digits after an optional sign, or None when there are none. */
  function UnsignedValue(body: string): (r: Option<nat>)
    ensures r.Some? <==> |body| > 0 && AllDigits(body)
  {
    if |body| > 0 && AllDigits(body) then Some(DigitsValue(body)) else None
  }

  /** A signed run of digits after white space has been trimmed. */
  function SignedValue(t: string): (r: Option<int>)
  {
    if |t| > 0 && t[0] == '-' then
      match UnsignedValue(t[1..])
      case Some(v) => Some(-(v as int))
      case None => None
    else if |t| > 0 && t[0] == '+' then
      match UnsignedValue(t[1..])
      case Some(v) => Some(v as int)
      case None => None
    else
      match UnsignedValue(t)
      case Some(v) => Some(v as int)
      case None => None
  }

  /** int.TryParse(s, out n) with the default NumberStyles.Integer: optional
      surrounding white space, an optional sign, one or more ASCII digits, and
      a value that fits in 32 bits. */
  function ParseInt32(s: string): (r: Option<int>)
    ensures r.Some? ==> IsInt32(r.value)
  {
    match SignedValue(Trim(s))
    case Some(v) => if IsInt32(v) then Some(v) else None
    case None => None
  }

  /** CAST(s AS INT) in SQL Server: an all-blank string and a lone sign cast
      to 0, otherwise the int.TryParse grammar; anything else is a conversion
      error. */
  function SqlCastInt(s: string): (r: Result<int>)
    ensures r.Ok? ==> IsInt32(r.value)
    ensures (forall i :: 0 <= i < |s| ==> IsWhite(s[i])) ==> r == Ok(0)
    ensures Trim(s) == "-" || Trim(s) == "+" ==> r == Ok(0)
    ensures ParseInt32(s).Some? ==> r == Ok(ParseInt32(s).value)
    ensures r.Err? <==> ParseInt32(s).None? && Trim(s) != "-" && Trim(s) != "+" && exists i :: 0 <= i < |s| && !IsWhite(s[i])
  {
    if forall i :: 0 <= i < |s| ==> IsWhite(s[i]) then
      BlankTrimsEmpty(s);
      Ok(0)
    else if Trim(s) == "-" || Trim(s) == "+" then Ok(0)
    else match ParseInt32(s)
      case Some(v) => Ok(v)
      case None => Err(SqlFailure)
  }

  /** Trimming an all-blank string leaves nothing, so it does not parse. */
  lemma {:induction false} BlankTrimsEmpty(s: string)
    requires forall i :: 0 <= i < |s| ==> IsWhite(s[i])
    ensures TrimStart(s) == [] && Trim(s) == []
    ensures ParseInt32(s).None?
  {
    if |s| > 0 {
      assert forall i :: 0 <= i < |s[1..]| ==> s[1..][i] == s[i + 1];
      BlankTrimsEmpty(s[1..]);
    }
  }

  lemma TrimNoWhite(s: string)
    requires forall i :: 0 <= i < |s| ==> !IsWhite(s[i])
    ensures Trim(s) == s
  {
    assert TrimStart(s) == s;
    assert TrimEnd(s) == s;
  }

  lemma ParseTrimmed(s: string, v: int)
    requires Trim(s) == s
    requires SignedValue(s) == Some(v) && IsInt32(v)
    ensures ParseInt32(s) == Some(v)
  {
  }

  lemma DigitsTrimmed(d: string)
    requires AllDigits(d)
    ensures Trim(d) == d
  {
    assert forall i :: 0 <= i < |d| ==> !IsWhite(d[i]);
    TrimNoWhite(d);
  }

  /** Parsing a sign-free run of digits. */
  lemma ParseDigits(d: string)
    requires |d| > 0 && AllDigits(d) && DigitsValue(d) <= Int32Max
    ensures ParseInt32(d) == Some(DigitsValue(d))
  {
    DigitsTrimmed(d);
    var v := DigitsValue(d) as int;
    assert d[0] != '-' && d[0] != '+';
    assert SignedValue(d) == Some(v);
    ParseTrimmed(d, v);
  }

  /** Parsing a minus sign followed by a run of digits. */
  lemma ParseNegated(d: string)
    requires |d| > 0 && AllDigits(d) && DigitsValue(d) <= -Int32Min
    ensures ParseInt32("-" + d) == Some(-(DigitsValue(d) as int))
  {
    var s := "-" + d;
    assert forall i :: 0 <= i < |s| ==> !IsWhite(s[i]) by {
      assert forall i :: 1 <= i < |s| ==> s[i] == d[i - 1];
    }
    TrimNoWhite(s);
    var v := -(DigitsValue(d) as int);
    assert s[1..] == d;
    assert SignedValue(s) == Some(v);
    ParseTrimmed(s, v);
  }

  lemma CastOfParsed(s: string, v: int)
    requires |s| > 0 && !IsWhite(s[0]) && ParseInt32(s) == Some(v)
    ensures SqlCastInt(s) == Ok(v)
  {
  }

  lemma FormatD3Negative(n: int)
    requires n < 0
    ensures FormatD3(n) == "-" + PadZeros(NatToDigits(-n), 3)
  {
  }

  lemma ParseFormatD3Negative(n: int)
    requires Int32Min <= n < 0
    ensures |FormatD3(n)| > 0 && FormatD3(n)[0] == '-'
    ensures ParseInt32(FormatD3(n)) == Some(n)
  {
    var m: nat := -n;
    var d := PadZeros(NatToDigits(m), 3);
    DigitsValuePadded(m);
    FormatD3Negative(n);
    assert |d| > 0;
    ParseNegated(d);
  }

  lemma ParseFormatD3NonNegative(n: int)
    requires 0 <= n <= Int32Max
    ensures |FormatD3(n)| > 0 && IsDigit(FormatD3(n)[0])
    ensures ParseInt32(FormatD3(n)) == Some(n)
  {
    var d := PadZeros(NatToDigits(n), 3);
    DigitsValuePadded(n);
    assert FormatD3(n) == d;
    ParseDigits(d);
  }

  /** Parsing undoes "D3" formatting: the text a generator appends after its
      prefix reads back as the number it was made from. */
  lemma ParseFormatD3(n: int)
    requires IsInt32(n)
    ensures ParseInt32(FormatD3(n)) == Some(n)
    ensures SqlCastInt(FormatD3(n)) == Ok(n)
  {
    if n < 0 {
      ParseFormatD3Negative(n);
    } else {
      ParseFormatD3NonNegative(n);
    }
    CastOfParsed(FormatD3(n), n);
  }
}
